=== FILE: README.md ===
# Alnor ventilation integration: humidity control and connection manager

This Dafny project models the decision logic of a Home Assistant integration
for Alnor ventilation units. Three parts are modelled:

- **The humidity hysteresis controller.** Linked humidity sensors are reduced
  to one reading: the maximum of the usable values. That reading is compared
  with a band `target ± hysteresis`. Above the band the unit is switched to
  the configured high preset. Below it, the unit goes to the low preset. A
  cooldown limits how often the check switches automatically. The check exists
  in three copies, which differ. The shared mixin clamps the band to [1, 99]
  and takes the cooldown from the options. The humidifier entity does not
  clamp, and its high branch ends the check even when the unit is already in
  the high preset. The climate entity does not clamp, always waits 120 s and
  defaults the high preset to `party`. `HumidityControl.Decide` is one
  decision function, and a `Variant` record picks one of the three copies.
- **The preset speed policy.** It is shared by the humidifier's
  `async_set_mode` and the climate entity's `async_set_fan_mode`. Choosing
  standby stops a running unit. Any other preset starts a stopped unit at 50%.
  It is modelled as the sequence of controller calls issued.
- **The coordinator's connection manager.** For each device, setup picks a
  local Modbus TCP link or the vendor cloud. Discovery runs on each update
  until one run completes it, and setup errors are sorted into two kinds. Each poll cycle reads every device and
  omits the ones that fail. It may also retry a failed local read through the
  cloud, and then it picks the next poll interval.

Everything is a pure function over immutable datatypes. The outside world
enters as parameters:

- the clock is `now`, in seconds;
- sensor states are given already parsed;
- the local connection outcome is a set of reachable addresses;
- device reads are maps of the reads that succeed;
- whether a preset call raises is a boolean: `modeSetSucceeds` for the two
  entities, whose preset setters catch the error, and `setterReturns` for the
  mixin, whose check lets the error of the entity's setter escape.

The humidity logic is the same in the three entity copies for
`current_humidity`. It is modelled once, as `HumidityControl.CurrentHumidity`.

Files: `common.dfy` (presets, snapshots, controller calls),
`mode_change.dfy`, `entity.dfy` (what both entities share), `humidity_control.dfy`, `humidifier.dfy`, `climate.dfy`,
`coordinator.dfy`.

## Model

| member | source | states |
|---|---|---|
| Common.ParseMode | custom_components/alnor/humidifier.py:288-289 | A preset name is recognised exactly when it names one of the six presets. The result has that name, and unknown names are rejected. |
| Common.ParseModeName | custom_components/alnor/humidifier.py:288-289 | Round trip: parsing a preset's own name gives the preset back. So the six names are distinct and a preset read from a snapshot can be set again by name. |
| HumidityControl.CurrentHumidity | custom_components/alnor/humidity_control_mixin.py:59-96 | The humidity is absent exactly when no configured sensor gives a usable value. This covers no sensors, unavailable, unknown, a missing state and a state whose parse raises `ValueError` or `TypeError`. Otherwise it is one of the usable readings and no usable reading exceeds it. |
| HumidityControl.ConfigOf | custom_components/alnor/humidity_control_mixin.py:98-119 | Missing option keys fall back to hysteresis 5, cooldown 60, high `home_plus` and low `home`. The target has no default. A fixed-cooldown variant ignores the configured cooldown. |
| HumidityControl.UpperThreshold | custom_components/alnor/humidity_control_mixin.py:155 | The upper threshold never exceeds `target + hysteresis`. When clamping it never exceeds 99. It equals `target + hysteresis` when that is at most 99 or no clamping applies, and it is exactly 99 when clamping applies and `target + hysteresis` exceeds 99. |
| HumidityControl.LowerThreshold | custom_components/alnor/humidity_control_mixin.py:156 | The lower threshold is never below `target - hysteresis`. When clamping it is never below 1. It equals `target - hysteresis` when that is at least 1 or no clamping applies, and it is exactly 1 when clamping applies and `target - hysteresis` is below 1. |
| HumidityControl.Decide | custom_components/alnor/humidity_control_mixin.py:121-198 | Nothing happens and the change time is kept when control is disabled, humidity or target is missing, or the cooldown is running. Above the upper threshold and not in the high preset, exactly one switch to high is made and the change time becomes now. The comparison is strict. Otherwise, below the lower threshold and not in the low preset, exactly one switch to low is made. In every other case nothing happens. |
| HumidityControl.SwitchesRespectTheBand | custom_components/alnor/humidity_control_mixin.py:168-190 | The change time moves only with a switch, and then to now. A high switch needs humidity above the upper threshold, a low switch needs it below the lower one. The target preset is never the current one. |
| HumidityControl.BandHoldsMode | custom_components/alnor/humidity_control_mixin.py:191-198 | Inside the band, bounds included, no switch happens whatever the current preset. |
| HumidityControl.AtMostOneSwitchPerCooldown | custom_components/alnor/humidity_control_mixin.py:143-152 | After a switch, any check before the cooldown has elapsed does nothing. So two checks in quick succession switch at most once. |
| HumidityControl.SettledHighPresetHolds | custom_components/alnor/humidity_control_mixin.py:169 | Already in the high preset and above the band, with the band not inverted: no further switch. |
| HumidityControl.ClampingIrrelevantInsideRange | custom_components/alnor/humidity_control_mixin.py:154-156 | When `1 <= target - hysteresis` and `target + hysteresis <= 99`, clamped and unclamped thresholds give the same decision. |
| HumidityControl.NestingIrrelevantForProperBand | custom_components/alnor/humidifier.py:395-419 | The humidifier's nested high branch decides exactly like the flat `and`/`elif` form whenever the lower threshold is at most the upper one. |
| HumidityControl.NestingMattersForInvertedBand | custom_components/alnor/humidifier.py:395-430 | With a negative hysteresis the two forms differ. The flat form switches to low while the unit is already high, and the nested form does nothing. |
| HumidityControl.MixinDefaults | custom_components/alnor/humidity_control_mixin.py:112-119 | With only a target set, the mixin uses hysteresis 5, cooldown 60 s, high `home_plus` and low `home`. The band is `target ± 5`, cut off at 99 above and at 1 below. |
| HumidityControl.ThresholdBoundaries | custom_components/alnor/humidity_control_mixin.py:154-178 | Target 60 with hysteresis 5 gives the band [55, 65]. At 65 nothing happens and at 66 the unit switches high. A target of 98 clamps the upper threshold to 99. |
| HumidityControl.PartyScenario | custom_components/alnor/humidity_control_mixin.py:143-178 | At 70% with target 60 ± 5, preset `party` and cooldown 60 s, the first check switches to `party`. A check 30 s later does nothing. A check 61 s later, with the unit now in `party`, also does nothing. |
| HumidityControl.EnableControl | custom_components/alnor/humidity_control_mixin.py:200-207 | Enabling turns control on and keeps the cooldown clock. |
| HumidityControl.DisableControl | custom_components/alnor/humidity_control_mixin.py:210-216 | Disabling turns control off and keeps the cooldown clock. |
| HumidityControl.MixinCheck | custom_components/alnor/humidity_control_mixin.py:121-198 | A disabled check changes nothing. When enabled, with humidity and target known and no cooldown running: above the upper threshold and not yet high, it attempts the high preset; below the lower threshold and not yet low, it attempts the low preset. The change time becomes now only once the entity's setter has returned. If the setter raises, the state is left as it was and the error escapes the check. In every other case it attempts nothing and the state is untouched. |
| HumidityControl.RaisingSetterStartsNoCooldown | custom_components/alnor/humidity_control_mixin.py:177-178 | After an attempted change whose setter raised, any later check with the same readings attempts the same change again: no cooldown was started. |
| HumidityControl.DisabledControlIsInert | custom_components/alnor/humidity_control_mixin.py:129-131 | After disabling, every check issues nothing and leaves the state as it is. |
| ModeChange.Commands | custom_components/alnor/climate.py:304-338 | No controller or an unknown preset name: no calls at all. Otherwise the preset call comes first, with at most one speed call after it, and that call sets speed 0 or 50. A second call is made exactly when the preset call succeeded, a snapshot exists and its speed disagrees with the preset: running for standby, stopped for any other. Speed 0 is set exactly when standby is chosen, the preset call succeeded and the unit was running. Speed 50 is set exactly when another preset is chosen, the preset call succeeded and the unit was stopped. |
| ModeChange.CommandsAlignSpeedWithMode | custom_components/alnor/humidifier.py:294-305 | Once the unit accepts the calls, it is in the requested preset. It runs exactly when that preset is not standby. |
| ModeChange.RepeatedRequestAddsNoSpeedCall | custom_components/alnor/climate.py:318-328 | Asking again for the preset just applied issues only the preset call. |
| Entity.CurrentPreset | custom_components/alnor/humidifier.py:135-145 | The current preset name, read by both entities (`mode` and, identically, `fan_mode` at climate.py:231-237). It exists exactly when a snapshot exists and parses back to the snapshot's preset. |
| Entity.PresetTakesEffect | custom_components/alnor/climate.py:314-328 | A preset change by name, from either entity, once accepted leaves the unit reporting that name. It runs exactly when the preset is not standby. |
| Humidifier.IsOn | custom_components/alnor/humidifier.py:124-133 | On exactly when a snapshot exists and the unit is not in standby. |
| Humidifier.TurnOn | custom_components/alnor/humidifier.py:237-239 | Calls are made exactly when a controller exists, and the first selects `home`. |
| Humidifier.TurnOff | custom_components/alnor/humidifier.py:241-243 | Calls are made exactly when a controller exists, and the first selects `standby`. |
| Humidifier.TurnOnOffTakeEffect | custom_components/alnor/humidifier.py:237-243 | Once accepted, turning on leaves the unit on and running. Turning off leaves it off and at speed 0. |
| Humidifier.CheckHumidity | custom_components/alnor/humidifier.py:320-439 | The check never touches the options, the enable flag or the cached target. A disabled check does nothing. When armed (enabled, humidity and target known, cooldown over), humidity above the band with the unit not yet high makes the high preset's calls, and humidity below the band with the unit not yet low (and, in the nested form, not above the band) makes the low preset's; either records now. In every other case no call is made and the entity is unchanged. |
| Humidifier.AlreadyHighIssuesNothing | custom_components/alnor/humidifier.py:395-416 | Above the upper threshold and already in the high preset: no call and no new change time, even if the humidity is also below the lower threshold. |
| Humidifier.BelowBandSwitchesLow | custom_components/alnor/humidifier.py:418-430 | Below the lower threshold, not above the upper one and not in the low preset: the low preset's calls are issued and the change time becomes now. |
| Humidifier.LastChangeRecordedEvenIfCallFails | custom_components/alnor/humidifier.py:407-408 | A decided switch records now even when nothing reached the unit. That happens with no controller, an unknown preset name in the options, or a preset call that raised. In that case only a preset call, if any, is issued. |
| Humidifier.Enable | custom_components/alnor/humidifier.py:441-452 | Enabling control sets the flag and runs one check at once. That check leaves the options and the cached target alone. The change time either stays or becomes now, and it becomes now whenever a call is issued. |
| Humidifier.Disable | custom_components/alnor/humidifier.py:454-458 | Disabling clears the flag only. The change time and the cached target stay. |
| Humidifier.EnableActsAtOnce | custom_components/alnor/humidifier.py:451-452 | A disabled humidifier does nothing on a check. Enabling it with the humidity above the band and no cooldown running switches to the high preset at once. |
| Humidifier.HumidifierDefaults | custom_components/alnor/humidifier.py:340-369 | With only a target set, the humidifier uses hysteresis 5, cooldown 60 s, high `home_plus` and low `home`. The thresholds are `target ± 5` with no cut-off. |
| Humidifier.SetHumidity | custom_components/alnor/humidifier.py:245-277 | Outside 0..100 nothing changes. Otherwise the cached target and the stored option both become the value. With control disabled no call follows and the change time stays. |
| Humidifier.NewTargetTakesEffectImmediately | custom_components/alnor/humidifier.py:275-277 | With control enabled and no cooldown running, humidity above the new band makes the new target switch the unit to the high preset at once. |
| Humidifier.AgreesWithMixinInsideRange | custom_components/alnor/humidifier.py:380-382 | With a non-negative hysteresis and the band inside [1, 99], the humidifier decides exactly as the shared mixin. |
| Climate.HvacModes | custom_components/alnor/climate.py:92-106 | No HVAC modes exactly when sensors are linked. Otherwise the modes are off and fan-only. |
| Climate.CurrentHvacMode | custom_components/alnor/climate.py:147-165 | No mode is reported exactly when sensors are linked. Fan-only is reported exactly when there are no sensors and a snapshot with non-zero speed. Any reported mode is one of the offered modes. |
| Climate.SetHvacMode | custom_components/alnor/climate.py:268-302 | No calls with sensors linked or without a controller. Otherwise off sets speed 0, fan-only sets speed 50, and other modes call nothing. |
| Climate.HvacModeRoundTrip | custom_components/alnor/climate.py:290-295 | Selecting an offered HVAC mode makes the entity report that mode once the unit accepts the call. |
| Climate.CheckHumidity | custom_components/alnor/climate.py:370-442 | The check never touches the options or the enable flag. A disabled check does nothing. When armed (enabled, humidity and target known, 120 s since the last change), humidity above the band with the unit not yet high makes the high preset's calls, and humidity below the band with the unit not yet low makes the low preset's; either records now. In every other case no call is made and the entity is unchanged. |
| Climate.FixedCooldownIgnoresOptions | custom_components/alnor/climate.py:399-408 | The configured cooldown has no influence. Within 120 s of the last change the check does nothing. |
| Climate.ClimateDefaults | custom_components/alnor/climate.py:389-392 | The defaults are hysteresis 5, high `party` and low `home`. The thresholds are the unclamped `target ± 5`. |
| Climate.SetHumidity | custom_components/alnor/climate.py:340-368 | Outside 0..100 nothing changes. Otherwise the stored target becomes the value, and with control disabled nothing else happens. |
| Climate.NewTargetTakesEffectImmediately | custom_components/alnor/climate.py:366-368 | With control enabled and the 120 s cooldown over, humidity above the new band makes the new target switch the unit to the high preset at once. |
| Coordinator.CreateController | custom_components/alnor/coordinator.py:283-309 | A controller is made exactly for the listed product types. It is the heat-recovery, exhaust-fan or sensor controller according to the type, and it is built over the given client. |
| Coordinator.LocalAddress | custom_components/alnor/coordinator.py:218-219 | A non-empty per-device override wins over the device's host. |
| Coordinator.SetupDeviceConnection | custom_components/alnor/coordinator.py:216-281 | Only this device's entries change. A local success gives local mode over the Modbus client and creates no cloud client. No address or a failed attempt gives a new cloud client and cloud mode. Without the API object nothing changes. An unsupported product type gets neither controller nor mode. |
| Coordinator.SetupDevice | custom_components/alnor/coordinator.py:178-206 | An unknown product id leaves everything as it was. Otherwise the device is recorded, and only its own entries change. No controller or mode is removed. With the API object present, a device with a controller class is connected as chosen: local mode over Modbus when its address accepts a connection, cloud mode over a cloud client otherwise. |
| Coordinator.SetupDevices | custom_components/alnor/coordinator.py:177-206 | The recorded devices grow by exactly the listed devices with a known product type. Devices not listed keep their entries. No controller or mode is removed. With the API object present, every listed device with a known product type that has a controller class ends with a controller and a mode. |
| Coordinator.SetupDevicesPicksConnection | custom_components/alnor/coordinator.py:177-206 | With the API object present and each device listed once, every listed device with a controller class ends up connected as chosen for it: local over Modbus when reachable, cloud otherwise. |
| Coordinator.SetupBridges | custom_components/alnor/coordinator.py:160-210 | Setup succeeds exactly when every bridge's listing succeeds. Otherwise it is an update failure. No controller or mode is removed. After a successful run with the API object present, every listed device with a known product type that has a controller class has a controller and a mode. |
| Coordinator.Setup | custom_components/alnor/coordinator.py:137-210 | The API object always exists afterwards. An authentication error maps to auth-failed. Any other connect error, or a failed bridge listing, maps to update-failed. Discovery succeeds exactly when every listing does. After a successful discovery, every listed device with a known product type that has a controller class has a controller and a mode. |
| Coordinator.UnknownProductSkipped | custom_components/alnor/coordinator.py:183-190 | A device whose product id is unknown is never recorded. |
| Coordinator.SetupDeviceKeepsNoCloudClientForLocal | custom_components/alnor/coordinator.py:224-263 | Setting up a device not seen before makes a cloud client only when it ends up in cloud mode. So no local device gains a cloud client. |
| Coordinator.SetupDevicesKeepsNoCloudClientForLocal | custom_components/alnor/coordinator.py:177-206 | The same holds over a whole bridge listing, given each device is listed once and none was set up before. |
| Coordinator.SetupBridgesKeepsNoCloudClientForLocal | custom_components/alnor/coordinator.py:160-210 | The same holds over all bridges, including a run that stops at a failed listing. |
| Coordinator.PollDevice | custom_components/alnor/coordinator.py:84-127 | A device falls back exactly when its read failed and the fallback conditions hold. Then it gets a cloud controller. A state is produced exactly when the first read or the cloud retry succeeds. |
| Coordinator.PollInterval | custom_components/alnor/coordinator.py:129-133 | 30 s exactly when some device is in local mode, else 60 s. |
| Coordinator.Poll | custom_components/alnor/coordinator.py:81-135 | A device is reported exactly when its read, or its single cloud retry, succeeds. A successful read is reported as read. No device becomes local. On a fallback the mode turns cloud before the retry and stays cloud if the retry fails, and a successful retry is reported as read. The next interval is 30 s when some device is local after the cycle and 60 s otherwise. |
| Coordinator.PollIsolatesDevices | custom_components/alnor/coordinator.py:84-127 | What a cycle leaves for a device depends only on that device's own reads: its reported state, its controller and its mode. Another device's failure cannot change any of them. |
| Coordinator.Update | custom_components/alnor/coordinator.py:74-135 | An update succeeds exactly when setup is complete afterwards. A completed setup is not repeated: devices and clients stay as they were. Authentication and connect errors on the first update fail it with their own errors. A successful update returns states only for devices with a controller, and returns every successful first read as read. |
| Coordinator.SetupRunsOnce | custom_components/alnor/coordinator.py:76-79 | After a successful update, later updates do not depend on the discovery environment at all. |
| Coordinator.FirstUpdateHasNoCloudClientForLocal | custom_components/alnor/coordinator.py:254-263 | From a fresh coordinator whose discovery lists each device once, the first update leaves no local device with a cloud client. |
| Coordinator.PollKeepsNoCloudClientForLocal | custom_components/alnor/coordinator.py:99-109 | The poll cycle keeps local devices free of cloud clients. |
| Coordinator.LocalFailureNeverFallsBack | custom_components/alnor/coordinator.py:99-127 | In such a state, a local device whose read fails is left out, stays local and keeps its controller. |
| Coordinator.FailingLocalDeviceStaysLocal | custom_components/alnor/coordinator.py:74-127 | Once setup is complete with no local device holding a cloud client, every update succeeds. A local device whose read fails is missing from its states, stays local on the same controller, and the shape holds for the next cycle. |
| Coordinator.ExampleFirstUpdate | custom_components/alnor/coordinator.py:74-79 | A heat recovery unit listed with a host that accepts a Modbus connection is set up locally by the first update and reported. No cloud client is made for it. |
| Coordinator.ReachableUnitIsNeverRetriedInTheCloud | custom_components/alnor/coordinator.py:89-127 | From that state, when the local read fails while the cloud would answer, the written update reports nothing and keeps the unit local. The corrected cycle moves it to the cloud and reports it. |
| Coordinator.ExampleOnDemandRetry | custom_components/alnor/coordinator.py:99-118 | For the reachable example unit whose local read fails while the cloud answers, the cycle with a cloud client made on demand reports it from the cloud and leaves it in cloud mode. |
| Coordinator.OnDemandFallbackReachesCloud | custom_components/alnor/coordinator.py:99-118 | When a cloud client is made at the moment of fallback, a failing local device moves to the cloud. It is then reported exactly when the cloud read succeeds. |
| Coordinator.OnDemandAgreesWhenCloudClientExists | custom_components/alnor/coordinator.py:101-118 | For a device that already has a cloud client, the corrected fallback leaves exactly what the written one does: the same state, controller and mode. |

## Findings

| source | as written | input that shows it | evidently intended | confidence | as-written member | corrected member |
|---|---|---|---|---|---|---|
| custom_components/alnor/coordinator.py:101 | The runtime fallback needs a cloud client for the device. Setup only makes one when the local connection failed (coordinator.py:255-262), so no local device ever has one. | Discovery lists a heat recovery unit whose host accepts a Modbus connection. In the next cycle its local read fails. The device is left out of that cycle and of every later one, stays local, and is never tried through the cloud. | A failed local read switches the device to a cloud controller and retries once in the same cycle. The log message at lines 93-94 and the comment at line 99 both say so. | medium; not executed | Coordinator.ReachableUnitIsNeverRetriedInTheCloud | Coordinator.OnDemandFallbackReachesCloud |

The corrected behaviour is `FallbackPolicy.CloudClientOnDemand`. It makes the
cloud client at the moment of fallback, provided the API object exists.
`Coordinator.OnDemandAgreesWhenCloudClientExists` shows that it differs from
the code only where the written branch cannot act. `Coordinator.Update` keeps
the policy as written, because that is what the integration runs.

The branch is not entirely dead. If setup fails part-way, a device may already
have got a cloud client, and a later refresh of the same coordinator object runs
setup again. In the integration this path is narrow: each entry setup builds a
new coordinator and calls its first refresh (__init__.py:22-25), so a failed
first update is not retried on that object through that path; only a direct
refresh of the object reaches it. If that device
now connects locally, it has both a local mode and a cloud client. This is why
`FirstUpdateHasNoCloudClientForLocal` starts from a fresh coordinator and
assumes each device is listed once.

## Notes on the source

- The three copies of the humidity check are not equivalent. The humidifier's
  high branch is nested, so "above the band and already high" never reaches
  the low branch. The mixin and climate use the flat form, which can reach it
  when the band is inverted. `NestingMattersForInvertedBand` shows this.
- The humidifier's check reads its target from the stored options, not from
  the cached target. `async_set_humidity` writes both, so the two agree after
  it.
- The API object is assigned before the connect call. So after a failed
  connect it exists but is not connected, and the model records that.

## Left out

- Parsing of sensor state strings (`int(float(...))`): readings are given
  already parsed, one per configured sensor.
- Logging, `async_request_refresh` after a preset change, and the entity state
  writes: they do not affect any decision.
- Scheduling: the timer, the sensor-change subscription, the
  `async_create_task` check on enable and how they interleave. Each check is
  modelled as one atomic step, so the check-then-set race on the change time
  is not modelled.
- The humidifier's sensor listener (de)registration and its handler.
  Events with an unavailable or unknown state are dropped, and every other
  event runs a check when control is enabled. That is subscription
  bookkeeping, and the checks themselves are modelled.
- The climate entity's enable and disable (climate.py:444-452) set and clear
  the flag exactly as `HumidityControl.EnableControl` and `DisableControl` do.
  They are not modelled a second time.
- Fractional seconds: `now` and the change time are whole seconds.
- The controller and transport internals, including `get_state`, Modbus
  register access and cloud calls: they are the read and connect oracles.
- Zone synchronisation, device and bridge info, and the bridge bookkeeping
  map: registry and cloud calls without decision content.
- The fan, sensor, select, button, binary sensor and switch platforms, config
  flow, integration setup and the version script.
- Coordinator.ProductType: the vendor enum is not part of this model.
  `OtherProduct` stands for any member the controller factory has no branch
  for. The platforms name members outside the factory's six: for example
  `HRU_PREMAIR_450` and `HRU_PREMAIR_500` (sensor.py:49, select.py:33-34),
  `VMC_EXHAUST_FAN` (sensor.py:134, select.py:36), `SENSOR_CO2`
  (sensor.py:147) and `VMI_02MC02` (sensor.py:160). Whether these are aliases
  of the six is not visible here. If they are distinct members, such devices
  get no controller.
- HumidityControl.CurrentHumidity: a sensor state of `inf` or `-inf` makes
  `int(float(...))` raise `OverflowError`. The handlers catch only
  `ValueError` and `TypeError` (humidity_control_mixin.py:80-81,
  humidifier.py:173, climate.py:225), so the property raises and the check
  is aborted. `SensorReading` has no value for such a state, so the model
  does not cover that escape.
- Humidifier.SetHumidity and Climate.SetHumidity: the options write
  (humidifier.py:261, climate.py:355) triggers the update listener that
  reloads the integration (__init__.py:35, 62-65). The coordinator is rebuilt,
  setup runs again, and the entities are rebuilt, which clears the enable flag
  and the change time. The model keeps the same entity, flag and cooldown
  clock after the write, and models only the check run inside the call.
- Coordinator.SetupDevicesPicksConnection: stated for one bridge's listing.
  Across bridges only the presence of a controller and a mode is stated
  (`SetupBridges`, `Setup`).
- Other fields of the device snapshot (temperatures, fan speeds, filter):
  display only.

=== FILE: climate.dfy ===
/** The climate entity of a heat recovery unit: HVAC modes when no humidity
    sensors are linked, presets as fan modes, the stored target humidity,
    and its own copy of the humidity check. */
module Climate {
  import opened Common
  import opened HumidityControl
  import opened Entity
  import ModeChange

  /** The cooldown of the climate entity's check, in seconds; it ignores
      the configured cooldown. */
  const ClimateCooldownSeconds: int := 120

  /** The climate entity's copy of the check: thresholds unclamped, a fixed
      cooldown, default high preset `party`, flat high branch. */
  const ClimateVariant: Variant := Variant(false, FixedCooldown(ClimateCooldownSeconds), "party", false)

  /** The host framework's HVAC modes. */
  datatype HvacMode = Off | Heat | Cool | HeatCool | HvacAuto | Dry | FanOnly

  /** What the entity keeps between calls. */
  datatype Climate = Climate(enabled: bool, lastChange: Option<int>)

  datatype Outcome = Outcome(entity: Climate, options: HumidityOptions, commands: seq<Command>)

  predicate HasSensors(env: Env)
  {
    |env.readings| > 0
  }

  /** The HVAC modes offered: none under humidity control, otherwise off and
      fan-only. */
  function HvacModes(env: Env): (modes: seq<HvacMode>)
    ensures HasSensors(env) <==> modes == []
    ensures forall m :: m in modes <==> !HasSensors(env) && (m == Off || m == FanOnly)
  {
    if HasSensors(env) then [] else [Off, FanOnly]
  }

  /** The HVAC mode reported: none under humidity control; otherwise off
      without a snapshot or at speed 0, fan-only when running. */
  function CurrentHvacMode(env: Env): (m: Option<HvacMode>)
    ensures m.None? <==> HasSensors(env)
    ensures m == Some(FanOnly) <==> !HasSensors(env) && env.state.Some? && env.state.value.speed != 0
    ensures m.Some? ==> m.value in HvacModes(env)
  {
    if HasSensors(env) then None
    else if env.state.None? || env.state.value.speed == 0 then Some(Off)
    else Some(FanOnly)
  }

  /** `async_set_hvac_mode`: ignored under humidity control or without a
      controller; off sets speed 0, fan-only sets speed 50 whatever the
      current speed, the other modes call nothing. */
  function SetHvacMode(env: Env, m: HvacMode): (cmds: seq<Command>)
    ensures HasSensors(env) || !env.hasController ==> cmds == []
    ensures !HasSensors(env) && env.hasController ==>
              && (m == Off ==> cmds == [SpeedSet(0)])
              && (m == FanOnly ==> cmds == [SpeedSet(ModeChange.ResumeSpeed)])
              && (m != Off && m != FanOnly ==> cmds == [])
  {
    if HasSensors(env) || !env.hasController then []
    else if m == Off then [SpeedSet(0)]
    else if m == FanOnly then [SpeedSet(ModeChange.ResumeSpeed)]
    else []
  }

  /** Selecting an offered HVAC mode makes the entity report it once the
      device has accepted the call. */
  lemma HvacModeRoundTrip(env: Env, m: HvacMode)
    requires m in HvacModes(env) && env.hasController && env.state.Some?
    ensures var after := Apply(env.state.value, SetHvacMode(env, m));
            CurrentHvacMode(env.(state := Some(after))) == Some(m)
  {
    var s := env.state.value;
    var cmds := SetHvacMode(env, m);
    assert Apply(s, cmds) == Apply(s.(speed := cmds[0].percent), []);
  }

  /** The climate entity's humidity check. */
  function CheckHumidity(c: Climate, o: HumidityOptions, env: Env): (r: Outcome)
    ensures r.options == o && r.entity.enabled == c.enabled
    ensures r.commands != [] ==> r.entity.lastChange == Some(env.now)
    ensures !c.enabled ==> r == Outcome(c, o, [])
    // above the band and not yet high: the high preset through the speed policy
    ensures Armed(ClimateVariant, c.enabled, CurrentHumidity(env.readings), o, env.now, c.lastChange)
            && GoesHigh(ClimateVariant, CurrentHumidity(env.readings).value, o, CurrentPreset(env.state)) ==>
              && r.commands == SetPreset(ConfigOf(ClimateVariant, o).highMode, env)
              && r.entity.lastChange == Some(env.now)
    // below the band and not yet low: the low preset
    ensures Armed(ClimateVariant, c.enabled, CurrentHumidity(env.readings), o, env.now, c.lastChange)
            && GoesLow(ClimateVariant, CurrentHumidity(env.readings).value, o, CurrentPreset(env.state)) ==>
              && r.commands == SetPreset(ConfigOf(ClimateVariant, o).lowMode, env)
              && r.entity.lastChange == Some(env.now)
    // otherwise no call, and the entity is left as it was
    ensures !(Armed(ClimateVariant, c.enabled, CurrentHumidity(env.readings), o, env.now, c.lastChange)
              && (GoesHigh(ClimateVariant, CurrentHumidity(env.readings).value, o, CurrentPreset(env.state))
                  || GoesLow(ClimateVariant, CurrentHumidity(env.readings).value, o, CurrentPreset(env.state)))) ==>
              r == Outcome(c, o, [])
  {
    var d := Decide(ClimateVariant, c.enabled, CurrentHumidity(env.readings), o, CurrentPreset(env.state),
                    env.now, c.lastChange);
    SwitchesRespectTheBand(ClimateVariant, c.enabled, CurrentHumidity(env.readings), o,
                           CurrentPreset(env.state), env.now, c.lastChange);
    Outcome(c.(lastChange := d.lastChange), o, Carry(d.action, env))
  }

  /** The configured cooldown plays no part: the climate entity always
      waits 120 s, and not a second less. */
  lemma FixedCooldownIgnoresOptions(c: Climate, o: HumidityOptions, cooldown: Option<int>, env: Env)
    ensures CheckHumidity(c, o.(cooldown := cooldown), env).commands == CheckHumidity(c, o, env).commands
    ensures c.lastChange.Some? && env.now - c.lastChange.value < ClimateCooldownSeconds ==>
              CheckHumidity(c, o, env) == Outcome(c, o, [])
  {
    assert ConfigOf(ClimateVariant, o.(cooldown := cooldown)) == ConfigOf(ClimateVariant, o);
  }

  /** Defaults of the climate copy: hysteresis 5, high `party`, low `home`,
      unclamped thresholds `target ± hysteresis`. */
  lemma ClimateDefaults(t: int)
    ensures var c := ConfigOf(ClimateVariant, HumidityOptions(None, Some(t), None, None, None));
            && c.hysteresis == 5 && c.highMode == "party" && c.lowMode == "home"
            && UpperThreshold(ClimateVariant, c) == t + 5 && LowerThreshold(ClimateVariant, c) == t - 5
  {
  }

  /** `async_set_humidity`: values outside 0..100 are rejected with the
      options unchanged; otherwise the stored target takes the value and a
      check follows when control is enabled. */
  function SetHumidity(c: Climate, o: HumidityOptions, humidity: int, env: Env): (r: Outcome)
    ensures !(0 <= humidity <= 100) ==> r == Outcome(c, o, [])
    ensures 0 <= humidity <= 100 ==> r.options == o.(target := Some(humidity)) && r.entity.enabled == c.enabled
    ensures 0 <= humidity <= 100 && !c.enabled ==> r == Outcome(c, o.(target := Some(humidity)), [])
  {
    if !(0 <= humidity <= 100) then Outcome(c, o, [])
    else
      var o' := o.(target := Some(humidity));
      if c.enabled then CheckHumidity(c, o', env) else Outcome(c, o', [])
  }

  /** The check that follows a new target judges the humidity against the
      new target: with control enabled, the fixed cooldown over and the
      humidity above the new band, the high preset is selected right away. */
  lemma NewTargetTakesEffectImmediately(c: Climate, o: HumidityOptions, humidity: int, env: Env)
    requires 0 <= humidity <= 100 && c.enabled
    requires !CooldownActive(ClimateCooldownSeconds, env.now, c.lastChange)
    requires env.hasController && env.state.Some?
    requires ParseMode(ConfigOf(ClimateVariant, o).highMode).Some?
    requires CurrentPreset(env.state) != Some(ConfigOf(ClimateVariant, o).highMode)
    requires CurrentHumidity(env.readings).Some?
    requires CurrentHumidity(env.readings).value > humidity + ConfigOf(ClimateVariant, o).hysteresis
    ensures var r := SetHumidity(c, o, humidity, env);
            && r.commands != []
            && r.commands[0] == ModeSet(ParseMode(ConfigOf(ClimateVariant, o).highMode).value)
            && r.entity.lastChange == Some(env.now)
  {
    var o' := o.(target := Some(humidity));
    assert ConfigOf(ClimateVariant, o').highMode == ConfigOf(ClimateVariant, o).highMode;
    assert UpperThreshold(ClimateVariant, ConfigOf(ClimateVariant, o'))
           == humidity + ConfigOf(ClimateVariant, o).hysteresis;
  }
}

=== FILE: common.dfy ===
/** Vocabulary shared by the humidity controller, the entity adapters and the
    connection manager: optional values, results, the vendor's ventilation
    presets, the slice of a device snapshot the decisions read, and the calls
    an entity makes on a device controller. */
module Common {

  /** A value that may be absent (Python's `None`). */
  datatype Option<+T> = None | Some(value: T)

  /** A computation that either yields a value or fails with an error. */
  datatype Result<+T, +E> = Success(value: T) | Failure(error: E)

  /** The ventilation presets a device understands. */
  datatype VentilationMode = Standby | Away | Home | HomePlus | Auto | Party

  /** The preset's string value, as stored in options and shown in the UI. */
  function ModeName(m: VentilationMode): string
  {
    match m
    case Standby => "standby"
    case Away => "away"
    case Home => "home"
    case HomePlus => "home_plus"
    case Auto => "auto"
    case Party => "party"
  }

  /** Looking a preset up by its string value; `None` where the vendor enum
      constructor raises `ValueError`. */
  function ParseMode(s: string): (r: Option<VentilationMode>)
    ensures r.Some? ==> ModeName(r.value) == s
    ensures r.None? ==> forall m :: ModeName(m) != s
  {
    if s == "standby" then Some(Standby)
    else if s == "away" then Some(Away)
    else if s == "home" then Some(Home)
    else if s == "home_plus" then Some(HomePlus)
    else if s == "auto" then Some(Auto)
    else if s == "party" then Some(Party)
    else None
  }

  /** Every preset is recognised by its own name: the names are distinct. */
  lemma ParseModeName(m: VentilationMode)
    ensures ParseMode(ModeName(m)) == Some(m)
  {
  }

  /** The part of a device's polled state the decisions depend on: its
      current preset and fan speed in percent. */
  datatype DeviceState = DeviceState(mode: VentilationMode, speed: nat)

  /** A call made on a device controller. A call counts as issued whether or
      not the device then accepts it. */
  datatype Command = ModeSet(mode: VentilationMode) | SpeedSet(percent: nat)

  /** The device as it would be after accepting the given calls in order. */
  function Apply(s: DeviceState, cmds: seq<Command>): (r: DeviceState)
    ensures (forall i :: 0 <= i < |cmds| ==> !cmds[i].ModeSet?) ==> r.mode == s.mode
    ensures (forall i :: 0 <= i < |cmds| ==> !cmds[i].SpeedSet?) ==> r.speed == s.speed
    decreases |cmds|
  {
    if cmds == [] then s
    else
      var next := match cmds[0]
        case ModeSet(m) => s.(mode := m)
        case SpeedSet(p) => s.(speed := p);
      Apply(next, cmds[1..])
  }
}

=== FILE: coordinator.dfy ===
/** The connection manager: per-device choice between a local Modbus TCP
    link and the vendor cloud, the one-time discovery that runs on the first
    refresh, and the polling cycle with its local-to-cloud fallback and
    interval selection. Transports and controllers are oracles: a set of
    addresses that accept a local connection, and maps of the reads that
    succeed. */
module Coordinator {
  import opened Common

  type DeviceId = string

  datatype ConnectionMode = Local | Cloud

  /** The vendor's product classes. `OtherProduct` stands for any class the
      controller factory has no branch for. */
  datatype ProductType =
    | HeatRecoveryUnit | ExhaustFan
    | Co2SensorVmi | Co2SensorVms | HumiditySensorVmi | HumiditySensorVms
    | OtherProduct

  datatype Device = Device(id: DeviceId, productType: ProductType, host: string)

  /** A transport: a Modbus TCP client at an address, or a cloud client
      bound to the shared API session and one device. */
  datatype Client = ModbusLink(address: string) | CloudLink(deviceId: DeviceId)

  datatype ControllerKind = HeatRecoveryUnitController | ExhaustFanController | SensorController

  datatype Controller = Controller(kind: ControllerKind, client: Client)

  /** Poll intervals in seconds. */
  const LocalPollSeconds: nat := 30
  const CloudPollSeconds: nat := 60

  /** The coordinator's bookkeeping. `apiCreated` records that the cloud API
      object exists; `cloudClients` holds the devices a cloud client was
      made for (the client is determined by the device). */
  datatype Coordinator = Coordinator(
    apiCreated: bool,
    setupComplete: bool,
    devices: map<DeviceId, Device>,
    modbusClients: map<DeviceId, string>,
    cloudClients: set<DeviceId>,
    controllers: map<DeviceId, Controller>,
    modes: map<DeviceId, ConnectionMode>,
    pollSeconds: nat)

  /** A freshly constructed coordinator. */
  const Initial: Coordinator := Coordinator(false, false, map[], map[], {}, map[], map[], CloudPollSeconds)

  // ---------------------------------------------------------------------
  // Per-device connection setup
  // ---------------------------------------------------------------------

  predicate IsSensorProduct(t: ProductType)
  {
    t == Co2SensorVmi || t == Co2SensorVms || t == HumiditySensorVmi || t == HumiditySensorVms
  }

  /** `_create_controller`: the controller class follows the product type;
      a type without a branch gets none. */
  function CreateController(client: Client, device: Device): (r: Option<Controller>)
    ensures r.None? <==> device.productType == OtherProduct
    ensures r.Some? ==> r.value.client == client
    ensures r.Some? ==>
              && (r.value.kind == HeatRecoveryUnitController <==> device.productType == HeatRecoveryUnit)
              && (r.value.kind == ExhaustFanController <==> device.productType == ExhaustFan)
              && (r.value.kind == SensorController <==> IsSensorProduct(device.productType))
  {
    match device.productType
    case HeatRecoveryUnit => Some(Controller(HeatRecoveryUnitController, client))
    case ExhaustFan => Some(Controller(ExhaustFanController, client))
    case Co2SensorVmi => Some(Controller(SensorController, client))
    case Co2SensorVms => Some(Controller(SensorController, client))
    case HumiditySensorVmi => Some(Controller(SensorController, client))
    case HumiditySensorVms => Some(Controller(SensorController, client))
    case OtherProduct => None
  }

  /** The address a local connection is tried at: a non-empty per-device
      override wins over the host the cloud reports; empty means none. */
  function LocalAddress(overrides: map<DeviceId, string>, device: Device): (addr: string)
    ensures device.id in overrides && overrides[device.id] != "" ==> addr == overrides[device.id]
    ensures !(device.id in overrides && overrides[device.id] != "") ==> addr == device.host
  {
    if device.id in overrides && overrides[device.id] != "" then overrides[device.id] else device.host
  }

  /** A local connection is attempted and succeeds. */
  predicate ConnectsLocally(overrides: map<DeviceId, string>, reachable: set<string>, device: Device)
  {
    LocalAddress(overrides, device) != "" && LocalAddress(overrides, device) in reachable
  }

  /** Records the controller and mode, when a controller can be made. */
  function Register(c: Coordinator, device: Device, client: Client, mode: ConnectionMode): Coordinator
  {
    match CreateController(client, device)
    case None => c
    case Some(ctl) => c.(controllers := c.controllers[device.id := ctl], modes := c.modes[device.id := mode])
  }

  /** Everything but the entries of device `id` is as before. */
  predicate OnlyDeviceChanged(c: Coordinator, c': Coordinator, id: DeviceId)
  {
    && c'.apiCreated == c.apiCreated && c'.setupComplete == c.setupComplete && c'.pollSeconds == c.pollSeconds
    && c'.devices - {id} == c.devices - {id}
    && c'.modbusClients - {id} == c.modbusClients - {id}
    && c'.cloudClients - {id} == c.cloudClients - {id}
    && c'.controllers - {id} == c.controllers - {id}
    && c'.modes - {id} == c.modes - {id}
  }

  /** `_setup_device_connection`. */
  function SetupDeviceConnection(c: Coordinator, device: Device, overrides: map<DeviceId, string>,
                                 reachable: set<string>): (c': Coordinator)
    ensures OnlyDeviceChanged(c, c', device.id) && c'.devices == c.devices
    // local success: local mode over the Modbus client, no cloud client made
    ensures ConnectsLocally(overrides, reachable, device) ==>
              && c'.modbusClients == c.modbusClients[device.id := LocalAddress(overrides, device)]
              && c'.cloudClients == c.cloudClients
              && (device.productType != OtherProduct ==>
                    && device.id in c'.modes && c'.modes[device.id] == Local
                    && device.id in c'.controllers
                    && c'.controllers[device.id].client == ModbusLink(LocalAddress(overrides, device)))
    // no address or a failed attempt: a cloud client and cloud mode
    ensures !ConnectsLocally(overrides, reachable, device) && c.apiCreated ==>
              && c'.modbusClients == c.modbusClients
              && c'.cloudClients == c.cloudClients + {device.id}
              && (device.productType != OtherProduct ==>
                    && device.id in c'.modes && c'.modes[device.id] == Cloud
                    && device.id in c'.controllers
                    && c'.controllers[device.id].client == CloudLink(device.id))
    // without an API object the device gets nothing
    ensures !ConnectsLocally(overrides, reachable, device) && !c.apiCreated ==> c' == c
    // without a controller the device gets neither controller nor mode
    ensures device.productType == OtherProduct ==> c'.controllers == c.controllers && c'.modes == c.modes
    ensures c.controllers.Keys == c.modes.Keys ==> c'.controllers.Keys == c'.modes.Keys
    // nothing is taken away
    ensures c.controllers.Keys <= c'.controllers.Keys && c.modes.Keys <= c'.modes.Keys
  {
    var addr := LocalAddress(overrides, device);
    if addr != "" && addr in reachable then
      Register(c.(modbusClients := c.modbusClients[device.id := addr]), device, ModbusLink(addr), Local)
    else if !c.apiCreated then c
    else Register(c.(cloudClients := c.cloudClients + {device.id}), device, CloudLink(device.id), Cloud)
  }

  // ---------------------------------------------------------------------
  // Discovery and setup
  // ---------------------------------------------------------------------

  /** Outcome of connecting to the cloud API. */
  datatype ApiConnect = Connected | AuthenticationRejected | ConnectFailed

  /** A device as the cloud lists it; `productType` is the result of looking
      its product id up (`None` for an unknown id). */
  datatype DiscoveredDevice = DiscoveredDevice(id: DeviceId, productType: Option<ProductType>, host: string)

  /** One bridge's device listing, or the listing call failing. */
  datatype BridgeListing = Listed(devices: seq<DiscoveredDevice>) | ListingFailed

  /** What setup meets: the connect outcome, the bridge listing (`None` if
      listing the bridges fails), the per-device address overrides and the
      addresses that accept a Modbus connection. */
  datatype SetupEnv = SetupEnv(
    connect: ApiConnect,
    bridges: Option<seq<BridgeListing>>,
    localOverrides: map<DeviceId, string>,
    reachable: set<string>)

  /** The host framework's two setup failures: credentials to re-enter, or
      an update to retry later. */
  datatype SetupError = AuthFailed | UpdateFailed

  datatype SetupOutcome = SetupOutcome(coord: Coordinator, error: Option<SetupError>)

  /** The ids of the devices with a known product type. */
  function KnownIds(devs: seq<DiscoveredDevice>): set<DeviceId>
  {
    set i | 0 <= i < |devs| && devs[i].productType.Some? :: devs[i].id
  }

  function AllIds(devs: seq<DiscoveredDevice>): set<DeviceId>
  {
    set i | 0 <= i < |devs| :: devs[i].id
  }

  /** A listed device that setup gives a controller: its product id is
      known and its product type has a controller class. */
  predicate Controllable(d: DiscoveredDevice)
  {
    d.productType.Some? && d.productType.value != OtherProduct
  }

  /** Every controllable device of the listing has a controller and a
      connection mode. */
  predicate AllSetUp(c: Coordinator, devs: seq<DiscoveredDevice>)
  {
    forall i :: 0 <= i < |devs| && Controllable(devs[i]) ==> devs[i].id in c.controllers && devs[i].id in c.modes
  }

  /** The controllable device `d` is connected the way setup chooses: over
      Modbus in local mode when its local address accepts a connection, and
      through the cloud in cloud mode otherwise. */
  predicate ConnectedAsChosen(c: Coordinator, d: DiscoveredDevice, overrides: map<DeviceId, string>,
                              reachable: set<string>)
    requires Controllable(d)
  {
    var device := Device(d.id, d.productType.value, d.host);
    && d.id in c.controllers && d.id in c.modes
    && if ConnectsLocally(overrides, reachable, device)
       then c.modes[d.id] == Local && c.controllers[d.id].client == ModbusLink(LocalAddress(overrides, device))
       else c.modes[d.id] == Cloud && c.controllers[d.id].client == CloudLink(d.id)
  }

  /** Entries of device `id` are the same in both states. */
  predicate SameAt(c: Coordinator, c': Coordinator, id: DeviceId)
  {
    && (id in c'.devices <==> id in c.devices)
    && (id in c'.cloudClients <==> id in c.cloudClients)
    && (id in c'.modes <==> id in c.modes) && (id in c.modes ==> c'.modes[id] == c.modes[id])
    && (id in c'.controllers <==> id in c.controllers)
    && (id in c.controllers ==> c'.controllers[id] == c.controllers[id])
  }

  /** One listed device: an unknown product id is skipped; otherwise the
      device is recorded and its connection set up. */
  function SetupDevice(c: Coordinator, d: DiscoveredDevice, overrides: map<DeviceId, string>,
                       reachable: set<string>): (c': Coordinator)
    ensures OnlyDeviceChanged(c, c', d.id)
    ensures d.productType.None? ==> c' == c
    ensures d.productType.Some? ==> c'.devices == c.devices[d.id := Device(d.id, d.productType.value, d.host)]
    ensures c.controllers.Keys <= c'.controllers.Keys && c.modes.Keys <= c'.modes.Keys
    ensures c.apiCreated && Controllable(d) ==> ConnectedAsChosen(c', d, overrides, reachable)
  {
    match d.productType
    case None => c
    case Some(t) =>
      var device := Device(d.id, t, d.host);
      SetupDeviceConnection(c.(devices := c.devices[d.id := device]), device, overrides, reachable)
  }

  /** The devices of one bridge, in listing order. */
  function SetupDevices(c: Coordinator, devs: seq<DiscoveredDevice>, overrides: map<DeviceId, string>,
                        reachable: set<string>): (c': Coordinator)
    ensures c'.devices.Keys == c.devices.Keys + KnownIds(devs)
    ensures c'.apiCreated == c.apiCreated && c'.setupComplete == c.setupComplete
    ensures c'.pollSeconds == c.pollSeconds
    ensures forall id :: id !in AllIds(devs) ==> SameAt(c, c', id)
    ensures c.controllers.Keys <= c'.controllers.Keys && c.modes.Keys <= c'.modes.Keys
    ensures c.apiCreated ==> AllSetUp(c', devs)
    decreases |devs|
  {
    if devs == [] then c
    else
      var c1 := SetupDevice(c, devs[0], overrides, reachable);
      var r := SetupDevices(c1, devs[1..], overrides, reachable);
      SetupDevicesStep(c, c1, r, devs);
      SetupDevicesCoverStep(c, c1, r, devs);
      r
  }

  /** The coverage half of one step of `SetupDevices`: the first device is
      set up by its own call and kept by the rest. */
  lemma SetupDevicesCoverStep(c: Coordinator, c1: Coordinator, r: Coordinator, devs: seq<DiscoveredDevice>)
    requires devs != [] && c1.apiCreated == c.apiCreated
    requires c.apiCreated && Controllable(devs[0]) ==> devs[0].id in c1.controllers && devs[0].id in c1.modes
    requires c1.controllers.Keys <= r.controllers.Keys && c1.modes.Keys <= r.modes.Keys
    requires c1.apiCreated ==> AllSetUp(r, devs[1..])
    ensures c.apiCreated ==> AllSetUp(r, devs)
  {
    if c.apiCreated {
      forall i | 0 <= i < |devs| && Controllable(devs[i])
        ensures devs[i].id in r.controllers && devs[i].id in r.modes
      {
        if i > 0 { assert devs[i] == devs[1..][i - 1]; }
      }
    }
  }

  /** One step of `SetupDevices`: the first device's own changes, followed
      by the rest, add up to the whole listing's. */
  lemma SetupDevicesStep(c: Coordinator, c1: Coordinator, r: Coordinator, devs: seq<DiscoveredDevice>)
    requires devs != []
    requires OnlyDeviceChanged(c, c1, devs[0].id)
    requires devs[0].productType.None? ==> c1 == c
    requires devs[0].productType.Some? ==> c1.devices.Keys == c.devices.Keys + {devs[0].id}
    requires r.devices.Keys == c1.devices.Keys + KnownIds(devs[1..])
    requires forall id :: id !in AllIds(devs[1..]) ==> SameAt(c1, r, id)
    ensures r.devices.Keys == c.devices.Keys + KnownIds(devs)
    ensures forall id :: id !in AllIds(devs) ==> SameAt(c, r, id)
  {
    KnownIdsSplit(devs);
    AllIdsSplit(devs);
    OnlyDeviceChangedIsLocal(c, c1, devs[0].id);
    forall id | id !in AllIds(devs) ensures SameAt(c, r, id) {
      assert SameAt(c, c1, id) && SameAt(c1, r, id);
    }
  }

  lemma KnownIdsSplit(devs: seq<DiscoveredDevice>)
    requires devs != []
    ensures KnownIds(devs) == (if devs[0].productType.Some? then {devs[0].id} else {}) + KnownIds(devs[1..])
  {
    forall id | id in KnownIds(devs)
      ensures id in (if devs[0].productType.Some? then {devs[0].id} else {}) + KnownIds(devs[1..])
    {
      var i :| 0 <= i < |devs| && devs[i].productType.Some? && devs[i].id == id;
      if i > 0 { assert devs[1..][i - 1] == devs[i]; }
    }
    forall id | id in KnownIds(devs[1..]) ensures id in KnownIds(devs) {
      var i :| 0 <= i < |devs[1..]| && devs[1..][i].productType.Some? && devs[1..][i].id == id;
      assert devs[i + 1] == devs[1..][i];
    }
  }

  lemma AllIdsSplit(devs: seq<DiscoveredDevice>)
    requires devs != []
    ensures AllIds(devs) == {devs[0].id} + AllIds(devs[1..])
  {
    forall id | id in AllIds(devs) ensures id in {devs[0].id} + AllIds(devs[1..]) {
      var i :| 0 <= i < |devs| && devs[i].id == id;
      if i > 0 { assert devs[1..][i - 1] == devs[i]; }
    }
    forall id | id in AllIds(devs[1..]) ensures id in AllIds(devs) {
      var i :| 0 <= i < |devs[1..]| && devs[1..][i].id == id;
      assert devs[i + 1] == devs[1..][i];
    }
  }

  lemma OnlyDeviceChangedIsLocal(c: Coordinator, c': Coordinator, x: DeviceId)
    requires OnlyDeviceChanged(c, c', x)
    ensures forall id :: id != x ==> SameAt(c, c', id)
  {
    forall id | id != x ensures SameAt(c, c', id) {
      assert id in c'.devices <==> id in c'.devices - {x};
      assert id in c.devices <==> id in c.devices - {x};
      assert id in c'.cloudClients <==> id in c'.cloudClients - {x};
      assert id in c.cloudClients <==> id in c.cloudClients - {x};
      assert id in c'.modes <==> id in c'.modes - {x};
      assert id in c.modes <==> id in c.modes - {x};
      assert id in c.modes ==> c'.modes[id] == (c'.modes - {x})[id];
      assert id in c'.controllers <==> id in c'.controllers - {x};
      assert id in c.controllers <==> id in c.controllers - {x};
      assert id in c.controllers ==> c'.controllers[id] == (c'.controllers - {x})[id];
    }
  }

  /** The bridges in order; a bridge whose listing fails aborts setup with
      the devices set up so far kept. */
  function SetupBridges(c: Coordinator, bridges: seq<BridgeListing>, overrides: map<DeviceId, string>,
                        reachable: set<string>): (r: SetupOutcome)
    ensures r.error.None? || r.error == Some(UpdateFailed)
    ensures r.error.None? <==> forall i :: 0 <= i < |bridges| ==> bridges[i].Listed?
    ensures r.coord.apiCreated == c.apiCreated && r.coord.setupComplete == c.setupComplete
    ensures r.coord.pollSeconds == c.pollSeconds
    ensures r.coord.devices.Keys >= c.devices.Keys
    ensures c.controllers.Keys <= r.coord.controllers.Keys && c.modes.Keys <= r.coord.modes.Keys
    // after a complete run every controllable listed device has a controller and a mode
    ensures c.apiCreated && r.error.None? ==> AllSetUp(r.coord, ListedDevices(bridges))
    decreases |bridges|
  {
    if bridges == [] then SetupOutcome(c, None)
    else
      match bridges[0]
      case ListingFailed => SetupOutcome(c, Some(UpdateFailed))
      case Listed(devs) =>
        var c1 := SetupDevices(c, devs, overrides, reachable);
        var r := SetupBridges(c1, bridges[1..], overrides, reachable);
        assert forall i :: 1 <= i < |bridges| ==> bridges[i] == bridges[1..][i - 1];
        SetupBridgesCoverStep(c1, r.coord, devs, bridges);
        r
  }

  /** The coverage half of one step of `SetupBridges`: the first bridge's
      devices, set up before the rest and kept by it, join the rest's. */
  lemma SetupBridgesCoverStep(c1: Coordinator, r: Coordinator, devs: seq<DiscoveredDevice>,
                              bridges: seq<BridgeListing>)
    requires bridges != [] && bridges[0] == Listed(devs)
    requires AllSetUp(c1, devs) || !c1.apiCreated
    requires c1.controllers.Keys <= r.controllers.Keys && c1.modes.Keys <= r.modes.Keys
    ensures c1.apiCreated && AllSetUp(r, ListedDevices(bridges[1..])) ==> AllSetUp(r, ListedDevices(bridges))
  {
    var rest := ListedDevices(bridges[1..]);
    assert ListedDevices(bridges) == devs + rest;
    if c1.apiCreated && AllSetUp(r, rest) {
      forall i | 0 <= i < |devs + rest| && Controllable((devs + rest)[i])
        ensures (devs + rest)[i].id in r.controllers && (devs + rest)[i].id in r.modes
      {
        if i >= |devs| { assert (devs + rest)[i] == rest[i - |devs|]; }
      }
    }
  }

  /** `_async_setup`: the API object is created first, then connected; an
      authentication error and any other connect error are told apart;
      failing discovery is an update failure. */
  function Setup(c: Coordinator, env: SetupEnv): (r: SetupOutcome)
    ensures r.coord.apiCreated && r.coord.setupComplete == c.setupComplete
    ensures env.connect == AuthenticationRejected ==> r == SetupOutcome(c.(apiCreated := true), Some(AuthFailed))
    ensures env.connect == ConnectFailed ==> r == SetupOutcome(c.(apiCreated := true), Some(UpdateFailed))
    ensures env.connect == Connected && env.bridges.None? ==>
              r == SetupOutcome(c.(apiCreated := true), Some(UpdateFailed))
    ensures env.connect == Connected && env.bridges.Some? ==>
              && r.error != Some(AuthFailed)
              && (r.error.None? <==> forall i :: 0 <= i < |env.bridges.value| ==> env.bridges.value[i].Listed?)
              && (r.error.None? ==> AllSetUp(r.coord, ListedDevices(env.bridges.value)))
  {
    var c0 := c.(apiCreated := true);
    match env.connect
    case AuthenticationRejected => SetupOutcome(c0, Some(AuthFailed))
    case ConnectFailed => SetupOutcome(c0, Some(UpdateFailed))
    case Connected =>
      match env.bridges
      case None => SetupOutcome(c0, Some(UpdateFailed))
      case Some(bs) => SetupBridges(c0, bs, env.localOverrides, env.reachable)
  }

  /** With distinct ids, each controllable device of a bridge's listing ends
      up connected the way setup chooses for it: a later device never
      touches an earlier one's entries. */
  lemma {:induction false} SetupDevicesPicksConnection(c: Coordinator, devs: seq<DiscoveredDevice>,
                                                        overrides: map<DeviceId, string>, reachable: set<string>)
    requires c.apiCreated && DistinctIds(devs)
    ensures forall i :: 0 <= i < |devs| && Controllable(devs[i]) ==>
              ConnectedAsChosen(SetupDevices(c, devs, overrides, reachable), devs[i], overrides, reachable)
    decreases |devs|
  {
    if devs != [] {
      var c1 := SetupDevice(c, devs[0], overrides, reachable);
      var r := SetupDevices(c, devs, overrides, reachable);
      assert r == SetupDevices(c1, devs[1..], overrides, reachable);
      assert DistinctIds(devs[1..]) by {
        forall i, j | 0 <= i < j < |devs[1..]| ensures devs[1..][i].id != devs[1..][j].id {
          assert devs[1..][i] == devs[i + 1] && devs[1..][j] == devs[j + 1];
        }
      }
      SetupDevicesPicksConnection(c1, devs[1..], overrides, reachable);
      forall i | 0 <= i < |devs| && Controllable(devs[i])
        ensures ConnectedAsChosen(r, devs[i], overrides, reachable)
      {
        if i == 0 {
          assert devs[0].id !in AllIds(devs[1..]) by {
            forall j | 0 <= j < |devs[1..]| ensures devs[1..][j].id != devs[0].id {
              assert devs[1..][j] == devs[j + 1];
            }
          }
          assert SameAt(c1, r, devs[0].id);
        } else {
          assert devs[i] == devs[1..][i - 1];
        }
      }
    }
  }

  /** An unknown product id leaves no trace: that device gets no entry. */
  lemma UnknownProductSkipped(c: Coordinator, devs: seq<DiscoveredDevice>, overrides: map<DeviceId, string>,
                              reachable: set<string>, id: DeviceId)
    requires id !in c.devices
    requires forall i :: 0 <= i < |devs| && devs[i].id == id ==> devs[i].productType.None?
    ensures id !in SetupDevices(c, devs, overrides, reachable).devices
  {
  }

  // ---------------------------------------------------------------------
  // Polling
  // ---------------------------------------------------------------------

  /** The read oracle of one cycle: the devices whose read through their
      current controller succeeds, and those whose read through a newly made
      cloud controller succeeds. */
  datatype PollOracle = PollOracle(firstRead: map<DeviceId, DeviceState>, cloudRetry: map<DeviceId, DeviceState>)

  /** `AsWritten` retries only with a cloud client made during setup;
      `CloudClientOnDemand` makes one at the moment of the fallback. */
  datatype FallbackPolicy = AsWritten | CloudClientOnDemand

  /** A failed read of device `id` is retried through the cloud: the device
      is in local mode, a cloud client is at hand, the device is known and a
      controller can be made for it. */
  predicate FallbackApplies(c: Coordinator, id: DeviceId, policy: FallbackPolicy)
  {
    && id in c.modes && c.modes[id] == Local
    && (id in c.cloudClients || (policy == CloudClientOnDemand && c.apiCreated))
    && id in c.devices
    && CreateController(CloudLink(id), c.devices[id]).Some?
  }

  datatype DeviceOutcome = DeviceOutcome(state: Option<DeviceState>, controller: Controller, fellBack: bool)

  /** One device in one cycle. On a fallback the controller and the mode are
      replaced before the retry, so they stay replaced when it fails. */
  function PollDevice(c: Coordinator, id: DeviceId, o: PollOracle, policy: FallbackPolicy): (r: DeviceOutcome)
    requires id in c.controllers
    ensures r.fellBack <==> id !in o.firstRead && FallbackApplies(c, id, policy)
    ensures !r.fellBack ==> r.controller == c.controllers[id]
    ensures r.fellBack ==> r.controller.client == CloudLink(id)
    ensures r.state.Some? <==> id in o.firstRead || (r.fellBack && id in o.cloudRetry)
  {
    if id in o.firstRead then DeviceOutcome(Some(o.firstRead[id]), c.controllers[id], false)
    else if FallbackApplies(c, id, policy) then
      DeviceOutcome(if id in o.cloudRetry then Some(o.cloudRetry[id]) else None,
                    CreateController(CloudLink(id), c.devices[id]).value, true)
    else DeviceOutcome(None, c.controllers[id], false)
  }

  /** Some device is in local mode. */
  predicate AnyLocal(modes: map<DeviceId, ConnectionMode>)
  {
    exists id :: id in modes && modes[id] == Local
  }

  /** The interval chosen after a cycle: short while any device is local. */
  function PollInterval(modes: map<DeviceId, ConnectionMode>): (s: nat)
    ensures s == LocalPollSeconds <==> AnyLocal(modes)
    ensures s == CloudPollSeconds <==> !AnyLocal(modes)
  {
    if AnyLocal(modes) then LocalPollSeconds else CloudPollSeconds
  }

  /** Device `id` falls back in this cycle: it has a controller, its read
      failed and the fallback conditions hold. */
  predicate FallsBack(c: Coordinator, o: PollOracle, id: DeviceId, policy: FallbackPolicy)
  {
    id in c.controllers && id !in o.firstRead && FallbackApplies(c, id, policy)
  }

  /** The controllers after a cycle: a cloud controller for each device that
      fell back, the old one for every other. */
  function PolledControllers(c: Coordinator, o: PollOracle, policy: FallbackPolicy): (m: map<DeviceId, Controller>)
    ensures m.Keys == c.controllers.Keys
    ensures forall id :: FallsBack(c, o, id, policy) ==>
              m[id] == CreateController(CloudLink(id), c.devices[id]).value && m[id].client == CloudLink(id)
    ensures forall id :: id in c.controllers && !FallsBack(c, o, id, policy) ==> m[id] == c.controllers[id]
  {
    map id | id in c.controllers :: PollDevice(c, id, o, policy).controller
  }

  /** The connection modes after a cycle: cloud for each device that fell
      back, unchanged for every other. */
  function PolledModes(c: Coordinator, o: PollOracle, policy: FallbackPolicy): (m: map<DeviceId, ConnectionMode>)
    ensures m.Keys == c.modes.Keys
    ensures forall id :: FallsBack(c, o, id, policy) ==> m[id] == Cloud
    ensures forall id :: id in c.modes && !FallsBack(c, o, id, policy) ==> m[id] == c.modes[id]
    ensures forall id :: id in m && m[id] == Local ==> c.modes[id] == Local
  {
    map id | id in c.modes :: if FallsBack(c, o, id, policy) then Cloud else c.modes[id]
  }

  /** The states a cycle reports. */
  function PolledStates(c: Coordinator, o: PollOracle, policy: FallbackPolicy): (m: map<DeviceId, DeviceState>)
    ensures m.Keys <= c.controllers.Keys
    ensures forall id :: id in c.controllers ==>
              (id in m <==> id in o.firstRead || (FallbackApplies(c, id, policy) && id in o.cloudRetry))
    ensures forall id :: id in c.controllers && id in o.firstRead ==> m[id] == o.firstRead[id]
    ensures forall id :: FallsBack(c, o, id, policy) && id in o.cloudRetry ==> m[id] == o.cloudRetry[id]
  {
    map id | id in c.controllers && PollDevice(c, id, o, policy).state.Some? ::
      PollDevice(c, id, o, policy).state.value
  }

  datatype PollOutcome = PollOutcome(coord: Coordinator, states: map<DeviceId, DeviceState>)

  /** The polling part of `_async_update_data`: every device with a
      controller is read; a failure leaves that device out of the cycle's
      states. */
  function Poll(c: Coordinator, o: PollOracle, policy: FallbackPolicy): (r: PollOutcome)
    ensures r.coord.devices == c.devices && r.coord.modbusClients == c.modbusClients
    ensures r.coord.apiCreated == c.apiCreated && r.coord.setupComplete == c.setupComplete
    ensures r.coord.controllers.Keys == c.controllers.Keys && r.coord.modes.Keys == c.modes.Keys
    ensures policy == AsWritten ==> r.coord.cloudClients == c.cloudClients
    ensures r.coord.cloudClients >= c.cloudClients
    // each device is reported exactly when its read, or its one retry, succeeds
    ensures r.states.Keys <= c.controllers.Keys
    ensures forall id :: id in c.controllers ==>
              (id in r.states <==> id in o.firstRead || (FallbackApplies(c, id, policy) && id in o.cloudRetry))
    ensures forall id :: id in c.controllers && id in o.firstRead ==> r.states[id] == o.firstRead[id]
    // fallback is sticky: no device becomes local during a cycle
    ensures forall id :: id in r.coord.modes && r.coord.modes[id] == Local ==> c.modes[id] == Local
    // the switch to cloud happens before the retry, whatever its outcome
    ensures forall id :: FallsBack(c, o, id, policy) ==>
              && r.coord.modes[id] == Cloud && id in r.coord.cloudClients
              && r.coord.controllers[id].client == CloudLink(id)
    // a device without a fallback keeps its controller and mode
    ensures forall id :: id in c.controllers && !FallsBack(c, o, id, policy) ==>
              r.coord.controllers[id] == c.controllers[id]
              && (id in c.modes ==> r.coord.modes[id] == c.modes[id])
    ensures forall id :: FallsBack(c, o, id, policy) && id in o.cloudRetry ==> r.states[id] == o.cloudRetry[id]
    // the next interval follows the modes after the cycle, both ways
    ensures r.coord.pollSeconds == PollInterval(r.coord.modes)
    ensures r.coord.pollSeconds == LocalPollSeconds <==> AnyLocal(r.coord.modes)
    ensures r.coord.pollSeconds == CloudPollSeconds <==> !AnyLocal(r.coord.modes)
  {
    var modes := PolledModes(c, o, policy);
    var fellBack := set id | id in c.controllers && FallsBack(c, o, id, policy);
    PollOutcome(
      c.(controllers := PolledControllers(c, o, policy), modes := modes,
         cloudClients := c.cloudClients + fellBack, pollSeconds := PollInterval(modes)),
      PolledStates(c, o, policy))
  }

  /** What a cycle leaves for device `id`: its reported state, its
      controller and its mode, each absent when there is none. */
  datatype DeviceView = DeviceView(state: Option<DeviceState>, controller: Option<Controller>,
                                   mode: Option<ConnectionMode>)

  function ViewOf(r: PollOutcome, id: DeviceId): DeviceView
  {
    DeviceView(if id in r.states then Some(r.states[id]) else None,
               if id in r.coord.controllers then Some(r.coord.controllers[id]) else None,
               if id in r.coord.modes then Some(r.coord.modes[id]) else None)
  }

  /** One device's outcome depends on its own reads only: whatever the other
      devices' reads do, a device is reported with the same state and ends
      with the same controller and mode. */
  lemma PollIsolatesDevices(c: Coordinator, o1: PollOracle, o2: PollOracle, policy: FallbackPolicy, id: DeviceId)
    requires id in o1.firstRead <==> id in o2.firstRead
    requires id in o1.firstRead ==> o1.firstRead[id] == o2.firstRead[id]
    requires id in o1.cloudRetry <==> id in o2.cloudRetry
    requires id in o1.cloudRetry ==> o1.cloudRetry[id] == o2.cloudRetry[id]
    ensures ViewOf(Poll(c, o1, policy), id) == ViewOf(Poll(c, o2, policy), id)
  {
    assert FallsBack(c, o1, id, policy) == FallsBack(c, o2, id, policy);
  }

  // ---------------------------------------------------------------------
  // The update step
  // ---------------------------------------------------------------------

  datatype UpdateOutcome = UpdateOutcome(coord: Coordinator, data: Result<map<DeviceId, DeviceState>, SetupError>)

  /** `_async_update_data`: setup until it has once completed, then a poll
      cycle. A setup error fails the whole update. */
  function Update(c: Coordinator, env: SetupEnv, o: PollOracle): (r: UpdateOutcome)
    ensures r.data.Success? <==> r.coord.setupComplete
    ensures r.data.Failure? ==> !c.setupComplete
    ensures c.setupComplete ==>
              && r.coord.devices == c.devices && r.coord.modbusClients == c.modbusClients
              && r.coord.cloudClients == c.cloudClients
    ensures env.connect == AuthenticationRejected && !c.setupComplete ==> r.data == Failure(AuthFailed)
    ensures env.connect == ConnectFailed && !c.setupComplete ==> r.data == Failure(UpdateFailed)
    // the data returned: only devices with a controller, and every first read that succeeded
    ensures r.data.Success? ==> r.data.value.Keys <= r.coord.controllers.Keys
    ensures r.data.Success? ==>
              forall id :: id in r.coord.controllers && id in o.firstRead ==>
                id in r.data.value && r.data.value[id] == o.firstRead[id]
  {
    if c.setupComplete then
      var p := Poll(c, o, AsWritten);
      UpdateOutcome(p.coord, Success(p.states))
    else
      var s := Setup(c, env);
      match s.error
      case Some(e) => UpdateOutcome(s.coord, Failure(e))
      case None =>
        var p := Poll(s.coord.(setupComplete := true), o, AsWritten);
        UpdateOutcome(p.coord, Success(p.states))
  }

  /** Setup is never repeated once an update has completed it: later
      updates do not look at the discovery environment at all. */
  lemma SetupRunsOnce(c: Coordinator, env1: SetupEnv, env2: SetupEnv, o1: PollOracle, o2: PollOracle)
    requires Update(c, env1, o1).data.Success?
    ensures var c1 := Update(c, env1, o1).coord;
            c1.setupComplete && Update(c1, env1, o2) == Update(c1, env2, o2)
  {
  }

  // ---------------------------------------------------------------------
  // Reachability of the runtime fallback
  // ---------------------------------------------------------------------

  /** No device in local mode has a cloud client. */
  predicate NoCloudClientForLocal(c: Coordinator)
  {
    forall id :: id in c.modes && c.modes[id] == Local ==> id !in c.cloudClients
  }

  /** Device `id` has no cloud client and no mode yet. */
  predicate Fresh(c: Coordinator, id: DeviceId)
  {
    id !in c.cloudClients && id !in c.modes
  }

  predicate DistinctIds(devs: seq<DiscoveredDevice>)
  {
    forall i, j :: 0 <= i < j < |devs| ==> devs[i].id != devs[j].id
  }

  /** All devices the bridges list, in order (up to a failed listing and
      past it). */
  function ListedDevices(bridges: seq<BridgeListing>): seq<DiscoveredDevice>
    decreases |bridges|
  {
    if bridges == [] then []
    else (if bridges[0].Listed? then bridges[0].devices else []) + ListedDevices(bridges[1..])
  }

  /** Setting up one fresh device keeps local devices free of cloud
      clients: a cloud client is only made when the local attempt failed. */
  lemma SetupDeviceKeepsNoCloudClientForLocal(c: Coordinator, d: DiscoveredDevice,
                                              overrides: map<DeviceId, string>, reachable: set<string>)
    requires NoCloudClientForLocal(c) && Fresh(c, d.id)
    ensures NoCloudClientForLocal(SetupDevice(c, d, overrides, reachable))
  {
    var c' := SetupDevice(c, d, overrides, reachable);
    forall id | id in c'.modes && c'.modes[id] == Local
      ensures id !in c'.cloudClients
    {
      if id != d.id {
        assert id in c'.modes - {d.id};
        assert (c'.modes - {d.id})[id] == (c.modes - {d.id})[id];
        assert id !in c.cloudClients - {d.id};
      }
    }
  }

  lemma {:induction false} SetupDevicesKeepsNoCloudClientForLocal(
    c: Coordinator, devs: seq<DiscoveredDevice>, overrides: map<DeviceId, string>, reachable: set<string>)
    requires NoCloudClientForLocal(c) && DistinctIds(devs)
    requires forall i :: 0 <= i < |devs| ==> Fresh(c, devs[i].id)
    ensures NoCloudClientForLocal(SetupDevices(c, devs, overrides, reachable))
    decreases |devs|
  {
    if devs != [] {
      var c1 := SetupDevice(c, devs[0], overrides, reachable);
      SetupDeviceKeepsNoCloudClientForLocal(c, devs[0], overrides, reachable);
      forall i | 0 <= i < |devs[1..]| ensures Fresh(c1, devs[1..][i].id) {
        var id := devs[1..][i].id;
        assert id == devs[i + 1].id && id != devs[0].id;
        assert id !in c.cloudClients - {devs[0].id};
        assert id !in c.modes - {devs[0].id};
      }
      assert DistinctIds(devs[1..]) by {
        forall i, j | 0 <= i < j < |devs[1..]| ensures devs[1..][i].id != devs[1..][j].id {
          assert devs[1..][i] == devs[i + 1] && devs[1..][j] == devs[j + 1];
        }
      }
      SetupDevicesKeepsNoCloudClientForLocal(c1, devs[1..], overrides, reachable);
    }
  }

  lemma DistinctIdsSplit(a: seq<DiscoveredDevice>, b: seq<DiscoveredDevice>)
    requires DistinctIds(a + b)
    ensures DistinctIds(a) && DistinctIds(b)
    ensures forall i, j :: 0 <= i < |a| && 0 <= j < |b| ==> a[i].id != b[j].id
  {
    forall i, j | 0 <= i < j < |a| ensures a[i].id != a[j].id {
      assert (a + b)[i] == a[i] && (a + b)[j] == a[j];
    }
    forall i, j | 0 <= i < j < |b| ensures b[i].id != b[j].id {
      assert (a + b)[|a| + i] == b[i] && (a + b)[|a| + j] == b[j];
    }
    forall i, j | 0 <= i < |a| && 0 <= j < |b| ensures a[i].id != b[j].id {
      assert (a + b)[i] == a[i] && (a + b)[|a| + j] == b[j];
    }
  }

  lemma {:induction false} SetupBridgesKeepsNoCloudClientForLocal(
    c: Coordinator, bridges: seq<BridgeListing>, overrides: map<DeviceId, string>, reachable: set<string>)
    requires NoCloudClientForLocal(c) && DistinctIds(ListedDevices(bridges))
    requires forall i :: 0 <= i < |ListedDevices(bridges)| ==> Fresh(c, ListedDevices(bridges)[i].id)
    ensures NoCloudClientForLocal(SetupBridges(c, bridges, overrides, reachable).coord)
    decreases |bridges|
  {
    if bridges != [] && bridges[0].Listed? {
      var devs := bridges[0].devices;
      var rest := ListedDevices(bridges[1..]);
      assert ListedDevices(bridges) == devs + rest;
      DistinctIdsSplit(devs, rest);
      forall i | 0 <= i < |devs| ensures Fresh(c, devs[i].id) {
        assert (devs + rest)[i] == devs[i];
      }
      SetupDevicesKeepsNoCloudClientForLocal(c, devs, overrides, reachable);
      var c1 := SetupDevices(c, devs, overrides, reachable);
      forall j | 0 <= j < |rest| ensures Fresh(c1, rest[j].id) {
        assert (devs + rest)[|devs| + j] == rest[j];
        assert SameAt(c, c1, rest[j].id);
      }
      SetupBridgesKeepsNoCloudClientForLocal(c1, bridges[1..], overrides, reachable);
    }
  }

  /** From a fresh coordinator and a discovery listing each device once,
      the first update leaves no local device with a cloud client. */
  lemma FirstUpdateHasNoCloudClientForLocal(env: SetupEnv, o: PollOracle)
    requires env.bridges.Some? ==> DistinctIds(ListedDevices(env.bridges.value))
    ensures NoCloudClientForLocal(Update(Initial, env, o).coord)
  {
    var c0 := Initial.(apiCreated := true);
    if env.connect == Connected && env.bridges.Some? {
      SetupBridgesKeepsNoCloudClientForLocal(c0, env.bridges.value, env.localOverrides, env.reachable);
      var s := Setup(Initial, env);
      if s.error.None? {
        PollKeepsNoCloudClientForLocal(s.coord.(setupComplete := true), o);
      }
    }
  }

  /** The as-written poll keeps that shape, cycle after cycle. */
  lemma PollKeepsNoCloudClientForLocal(c: Coordinator, o: PollOracle)
    requires NoCloudClientForLocal(c)
    ensures NoCloudClientForLocal(Poll(c, o, AsWritten).coord)
  {
  }

  /** So, as written, a local device whose read fails is simply left out of
      the cycle: it stays local on the same controller, and the cloud path
      is never tried. */
  lemma LocalFailureNeverFallsBack(c: Coordinator, o: PollOracle, id: DeviceId)
    requires NoCloudClientForLocal(c)
    requires id in c.controllers && id in c.modes && c.modes[id] == Local && id !in o.firstRead
    ensures var r := Poll(c, o, AsWritten);
            && id !in r.states && r.coord.modes[id] == Local && r.coord.controllers[id] == c.controllers[id]
            && NoCloudClientForLocal(r.coord)
  {
    assert !FallbackApplies(c, id, AsWritten);
  }

  /** With a cloud client made at the moment of the fallback, a local device
      whose read fails does move to the cloud, and is reported exactly when
      the cloud read succeeds. */
  lemma OnDemandFallbackReachesCloud(c: Coordinator, o: PollOracle, id: DeviceId)
    requires c.apiCreated
    requires id in c.controllers && id in c.modes && c.modes[id] == Local && id !in o.firstRead
    requires id in c.devices && c.devices[id].productType != OtherProduct
    ensures var r := Poll(c, o, CloudClientOnDemand);
            && r.coord.modes[id] == Cloud && id in r.coord.cloudClients
            && r.coord.controllers[id].client == CloudLink(id)
            && (id in r.states <==> id in o.cloudRetry)
  {
    assert FallbackApplies(c, id, CloudClientOnDemand);
  }

  /** The correction changes nothing where the written fallback could
      already act: a device whose cloud client exists is treated alike. */
  lemma OnDemandAgreesWhenCloudClientExists(c: Coordinator, o: PollOracle, id: DeviceId)
    requires id in c.cloudClients
    ensures ViewOf(Poll(c, o, AsWritten), id) == ViewOf(Poll(c, o, CloudClientOnDemand), id)
  {
    assert FallsBack(c, o, id, AsWritten) == FallsBack(c, o, id, CloudClientOnDemand);
  }

  /** Put together with `FirstUpdateHasNoCloudClientForLocal`: once setup
      has completed in the shape it produces, every later update drops a
      local device whose read fails from its states and keeps it local on
      the same controller, and the next update starts from the same shape,
      so this repeats cycle after cycle. */
  lemma FailingLocalDeviceStaysLocal(c: Coordinator, env: SetupEnv, o: PollOracle, id: DeviceId)
    requires c.setupComplete && NoCloudClientForLocal(c)
    requires id in c.controllers && id in c.modes && c.modes[id] == Local && id !in o.firstRead
    ensures var r := Update(c, env, o);
            && r.data.Success? && id !in r.data.value
            && r.coord.modes[id] == Local && r.coord.controllers[id] == c.controllers[id]
            && NoCloudClientForLocal(r.coord)
  {
    LocalFailureNeverFallsBack(c, o, id);
  }

  /** The finding on one input: a heat recovery unit answering on its
      listed host, and the snapshot it reports. */
  const ExampleUnit: DiscoveredDevice := DiscoveredDevice("hru", Some(HeatRecoveryUnit), "192.168.1.20")
  const ExampleEnv: SetupEnv := SetupEnv(Connected, Some([Listed([ExampleUnit])]), map[], {"192.168.1.20"})
  const ExampleState: DeviceState := DeviceState(Home, 50)

  /** The unit set up locally, as the first update leaves it. */
  predicate ExampleUnitLocal(c: Coordinator)
  {
    && c.setupComplete && c.apiCreated
    && c.modes == map["hru" := Local] && c.controllers.Keys == {"hru"}
    && "hru" in c.devices && c.devices["hru"].productType == HeatRecoveryUnit
    && NoCloudClientForLocal(c)
  }

  /** The first update sets the unit up locally and reports it. */
  lemma ExampleFirstUpdate()
    ensures var first := Update(Initial, ExampleEnv, PollOracle(map["hru" := ExampleState], map[]));
            first.data == Success(map["hru" := ExampleState]) && ExampleUnitLocal(first.coord)
  {
    var o1 := PollOracle(map["hru" := ExampleState], map[]);
    var reachable := {"192.168.1.20"};
    var c0 := Initial.(apiCreated := true);
    var c1 := SetupDevice(c0, ExampleUnit, map[], reachable);
    assert SetupDevices(c0, [ExampleUnit], map[], reachable) == c1;
    var bs := [Listed([ExampleUnit])];
    assert bs[1..] == [];
    assert SetupBridges(c0, bs, map[], reachable) == SetupBridges(c1, [], map[], reachable);
    assert Setup(Initial, ExampleEnv) == SetupOutcome(c1, None);
    assert c1.controllers.Keys == {"hru"} && c1.modes == map["hru" := Local];
    var p := Poll(c1.(setupComplete := true), o1, AsWritten);
    assert p.states.Keys == {"hru"};
    assert p.states == map["hru" := ExampleState];
    assert p.coord.modes.Keys == {"hru"};
    assert Update(Initial, ExampleEnv, o1) == UpdateOutcome(p.coord, Success(p.states));
    FirstUpdateHasNoCloudClientForLocal(ExampleEnv, o1);
  }

  /** In the next cycle the unit's local read fails while the cloud would
      answer: as written the cycle reports nothing and the unit stays local,
      whereas with a cloud client made on demand it is reported from the
      cloud. */
  lemma ReachableUnitIsNeverRetriedInTheCloud(c: Coordinator, env: SetupEnv)
    requires ExampleUnitLocal(c)
    ensures var next := PollOracle(map[], map["hru" := ExampleState]);
            var second := Update(c, env, next);
            var corrected := Poll(c, next, CloudClientOnDemand);
            && second.data == Success(map[]) && second.coord.modes == map["hru" := Local]
            && corrected.states == map["hru" := ExampleState] && corrected.coord.modes == map["hru" := Cloud]
  {
    var next := PollOracle(map[], map["hru" := ExampleState]);
    FailingLocalDeviceStaysLocal(c, env, next, "hru");
    var second := Update(c, env, next);
    assert second.coord.modes.Keys == {"hru"};
    ExampleOnDemandRetry(c);
  }

  /** The corrected half of the example: with a cloud client made on demand,
      the unit whose local read failed is reported from the cloud. */
  lemma ExampleOnDemandRetry(c: Coordinator)
    requires ExampleUnitLocal(c)
    ensures var corrected := Poll(c, PollOracle(map[], map["hru" := ExampleState]), CloudClientOnDemand);
            corrected.states == map["hru" := ExampleState] && corrected.coord.modes == map["hru" := Cloud]
  {
    var next := PollOracle(map[], map["hru" := ExampleState]);
    assert FallsBack(c, next, "hru", CloudClientOnDemand);
    var corrected := Poll(c, next, CloudClientOnDemand);
    assert corrected.states.Keys == {"hru"};
    assert corrected.coord.modes.Keys == {"hru"};
  }
}

=== FILE: entity.dfy ===
/** What the humidifier and the climate entity share: what they read from
    their surroundings during one call, the current preset as a name, and
    how a decision of the humidity check becomes controller calls. */
module Entity {
  import opened Common
  import opened HumidityControl
  import ModeChange

  /** What an entity reads during one call: one reading per linked sensor,
      the last polled snapshot, whether the coordinator holds a controller,
      whether the device accepts the preset call, and the clock (seconds). */
  datatype Env = Env(readings: seq<SensorReading>, state: Option<DeviceState>, hasController: bool,
                     modeSetSucceeds: bool, now: int)

  /** The current preset name (`mode` on the humidifier, `fan_mode` on the
      climate entity), `None` without a snapshot. */
  function CurrentPreset(state: Option<DeviceState>): (m: Option<string>)
    ensures m.Some? <==> state.Some?
    ensures m.Some? ==> ParseMode(m.value) == Some(state.value.mode)
  {
    match state
    case None => None
    case Some(s) =>
      ParseModeName(s.mode);
      Some(ModeName(s.mode))
  }

  /** The calls a preset change by name makes from inside an entity. */
  function SetPreset(requested: string, env: Env): seq<Command>
  {
    ModeChange.Commands(env.hasController, requested, env.state, env.modeSetSucceeds)
  }

  /** The controller calls that carry out a decision of the check. */
  function Carry(a: Action, env: Env): seq<Command>
  {
    match a
    case NoAction => []
    case SwitchHigh(m) => SetPreset(m, env)
    case SwitchLow(m) => SetPreset(m, env)
  }

  /** Once the device accepts the calls, a preset chosen by name is in
      force, and the device runs exactly when that preset is not standby;
      reading the preset back gives the name that was asked for. */
  lemma PresetTakesEffect(requested: string, env: Env)
    requires env.hasController && env.modeSetSucceeds && env.state.Some? && ParseMode(requested).Some?
    ensures var after := Apply(env.state.value, SetPreset(requested, env));
            && CurrentPreset(Some(after)) == Some(requested)
            && (after.speed > 0 <==> after.mode != Standby)
  {
    ModeChange.CommandsAlignSpeedWithMode(requested, env.state.value);
    var after := Apply(env.state.value, SetPreset(requested, env));
    ParseModeName(after.mode);
  }
}

=== FILE: humidifier.dfy ===
/** The humidifier entity of a heat recovery unit: on/off as presets, the
    target humidity it caches, preset changes through the speed policy, and
    its own copy of the humidity check. */
module Humidifier {
  import opened Common
  import opened HumidityControl
  import opened Entity
  import ModeChange

  /** The humidifier's copy of the check: thresholds unclamped, cooldown
      from the options, default high preset `home_plus`, and a high branch
      that ends the check even when the device is already in the high
      preset. */
  const HumidifierVariant: Variant := Variant(false, ConfiguredCooldown, "home_plus", true)

  /** What the entity keeps between calls. */
  datatype Humidifier = Humidifier(enabled: bool, lastChange: Option<int>, cachedTarget: Option<int>)

  /** The result of a call: the entity afterwards, the options afterwards,
      and the controller calls made. */
  datatype Outcome = Outcome(entity: Humidifier, options: HumidityOptions, commands: seq<Command>)

  /** The entity reports "on" exactly when a snapshot exists and the device
      is not in standby. */
  function IsOn(state: Option<DeviceState>): (on: bool)
    ensures on <==> state.Some? && state.value.mode != Standby
  {
    match state
    case None => false
    case Some(s) => ModeName(s.mode) != ModeName(Standby)
  }

  /** Turning the humidifier on selects `home`. */
  function TurnOn(env: Env): (cmds: seq<Command>)
    ensures env.hasController <==> cmds != []
    ensures cmds != [] ==> cmds[0] == ModeSet(Home)
  {
    SetPreset(ModeName(Home), env)
  }

  /** Turning it off selects `standby`. */
  function TurnOff(env: Env): (cmds: seq<Command>)
    ensures env.hasController <==> cmds != []
    ensures cmds != [] ==> cmds[0] == ModeSet(Standby)
  {
    SetPreset(ModeName(Standby), env)
  }

  /** Once the device accepts the calls, turning on leaves it on and running,
      and turning off leaves it off and stopped. */
  lemma TurnOnOffTakeEffect(env: Env)
    requires env.hasController && env.modeSetSucceeds && env.state.Some?
    ensures var on := Apply(env.state.value, TurnOn(env));
            IsOn(Some(on)) && on.speed > 0
    ensures var off := Apply(env.state.value, TurnOff(env));
            !IsOn(Some(off)) && off.speed == 0
  {
    PresetTakesEffect(ModeName(Home), env);
    PresetTakesEffect(ModeName(Standby), env);
  }

  /** The humidifier's humidity check. The time of the change is recorded
      once the preset change has been attempted, whatever became of it. */
  function CheckHumidity(h: Humidifier, o: HumidityOptions, env: Env): (r: Outcome)
    ensures r.options == o
    ensures r.entity.enabled == h.enabled && r.entity.cachedTarget == h.cachedTarget
    ensures r.commands != [] ==> r.entity.lastChange == Some(env.now)
    ensures !h.enabled ==> r == Outcome(h, o, [])
    // above the band and not yet high: the high preset through the speed policy
    ensures Armed(HumidifierVariant, h.enabled, CurrentHumidity(env.readings), o, env.now, h.lastChange)
            && GoesHigh(HumidifierVariant, CurrentHumidity(env.readings).value, o, CurrentPreset(env.state)) ==>
              && r.commands == SetPreset(ConfigOf(HumidifierVariant, o).highMode, env)
              && r.entity.lastChange == Some(env.now)
    // below the band and not yet low: the low preset
    ensures Armed(HumidifierVariant, h.enabled, CurrentHumidity(env.readings), o, env.now, h.lastChange)
            && GoesLow(HumidifierVariant, CurrentHumidity(env.readings).value, o, CurrentPreset(env.state)) ==>
              && r.commands == SetPreset(ConfigOf(HumidifierVariant, o).lowMode, env)
              && r.entity.lastChange == Some(env.now)
    // otherwise no call, and the entity is left as it was
    ensures !(Armed(HumidifierVariant, h.enabled, CurrentHumidity(env.readings), o, env.now, h.lastChange)
              && (GoesHigh(HumidifierVariant, CurrentHumidity(env.readings).value, o, CurrentPreset(env.state))
                  || GoesLow(HumidifierVariant, CurrentHumidity(env.readings).value, o, CurrentPreset(env.state)))) ==>
              r == Outcome(h, o, [])
  {
    var d := Decide(HumidifierVariant, h.enabled, CurrentHumidity(env.readings), o, CurrentPreset(env.state),
                    env.now, h.lastChange);
    SwitchesRespectTheBand(HumidifierVariant, h.enabled, CurrentHumidity(env.readings), o,
                           CurrentPreset(env.state), env.now, h.lastChange);
    Outcome(h.(lastChange := d.lastChange), o, Carry(d.action, env))
  }

  /** Above the band while already in the high preset: nothing is called
      and the cooldown clock is left alone, even if the humidity is also
      below the lower threshold. */
  lemma AlreadyHighIssuesNothing(h: Humidifier, o: HumidityOptions, env: Env)
    requires o.target.Some? && env.state.Some?
    requires CurrentHumidity(env.readings).Some?
    requires CurrentHumidity(env.readings).value > UpperThreshold(HumidifierVariant, ConfigOf(HumidifierVariant, o))
    requires CurrentPreset(env.state) == Some(ConfigOf(HumidifierVariant, o).highMode)
    ensures CheckHumidity(h, o, env) == Outcome(h, o, [])
  {
  }

  /** Below the band and not in the low preset: one preset call to the low
      preset (plus the speed policy), and the change time becomes now. */
  lemma BelowBandSwitchesLow(h: Humidifier, o: HumidityOptions, env: Env)
    requires Armed(HumidifierVariant, h.enabled, CurrentHumidity(env.readings), o, env.now, h.lastChange)
    requires var c := ConfigOf(HumidifierVariant, o);
             && CurrentHumidity(env.readings).value < LowerThreshold(HumidifierVariant, c)
             && CurrentHumidity(env.readings).value <= UpperThreshold(HumidifierVariant, c)
             && CurrentPreset(env.state) != Some(c.lowMode)
    ensures var r := CheckHumidity(h, o, env);
            && r.entity.lastChange == Some(env.now)
            && r.commands == SetPreset(ConfigOf(HumidifierVariant, o).lowMode, env)
  {
  }

  /** The change time is recorded even when no call reached the device: a
      missing controller, an unknown preset name in the options, or a
      preset call that raised. The next check then waits out the cooldown
      although nothing changed. */
  lemma LastChangeRecordedEvenIfCallFails(h: Humidifier, o: HumidityOptions, env: Env)
    requires var d := Decide(HumidifierVariant, h.enabled, CurrentHumidity(env.readings), o,
                             CurrentPreset(env.state), env.now, h.lastChange);
             !d.action.NoAction?
    requires !env.hasController || !env.modeSetSucceeds
             || ParseMode(Decide(HumidifierVariant, h.enabled, CurrentHumidity(env.readings), o,
                                 CurrentPreset(env.state), env.now, h.lastChange).action.mode).None?
    ensures var r := CheckHumidity(h, o, env);
            && r.entity.lastChange == Some(env.now)
            && |r.commands| <= 1
            && forall i :: 0 <= i < |r.commands| ==> r.commands[i].ModeSet?
  {
    SwitchesRespectTheBand(HumidifierVariant, h.enabled, CurrentHumidity(env.readings), o,
                           CurrentPreset(env.state), env.now, h.lastChange);
  }

  /** Enabling control on the humidifier also runs a check straight away. */
  function Enable(h: Humidifier, o: HumidityOptions, env: Env): (r: Outcome)
    ensures r.entity.enabled && r.options == o && r.entity.cachedTarget == h.cachedTarget
    ensures r.entity.lastChange == h.lastChange || r.entity.lastChange == Some(env.now)
    ensures r.commands != [] ==> r.entity.lastChange == Some(env.now)
  {
    CheckHumidity(h.(enabled := true), o, env)
  }

  /** Disabling control only clears the flag; the cooldown clock and the
      cached target stay. */
  function Disable(h: Humidifier): (r: Humidifier)
    ensures !r.enabled && r.lastChange == h.lastChange && r.cachedTarget == h.cachedTarget
  {
    h.(enabled := false)
  }

  /** An entity that was off switches at once when control is enabled with
      the humidity above the band, rather than waiting for the next poll or
      sensor change. */
  lemma EnableActsAtOnce(h: Humidifier, o: HumidityOptions, env: Env)
    requires !h.enabled
    requires Armed(HumidifierVariant, true, CurrentHumidity(env.readings), o, env.now, h.lastChange)
    requires GoesHigh(HumidifierVariant, CurrentHumidity(env.readings).value, o, CurrentPreset(env.state))
    ensures var r := Enable(h, o, env);
            && r.commands == SetPreset(ConfigOf(HumidifierVariant, o).highMode, env)
            && r.entity.lastChange == Some(env.now)
    ensures CheckHumidity(h, o, env).commands == []
  {
  }

  /** Defaults of the humidifier copy: hysteresis 5, cooldown 60 s, high
      `home_plus`, low `home`, and thresholds `target ± 5` with no cut-off
      at either end of the range. */
  lemma HumidifierDefaults(t: int)
    ensures var c := ConfigOf(HumidifierVariant, HumidityOptions(None, Some(t), None, None, None));
            && c.hysteresis == 5 && c.cooldown == 60 && c.highMode == "home_plus" && c.lowMode == "home"
            && UpperThreshold(HumidifierVariant, c) == t + 5 && LowerThreshold(HumidifierVariant, c) == t - 5
  {
  }

  /** `async_set_humidity`: values outside 0..100 are rejected with nothing
      changed; otherwise the cached target and the stored option both take
      the value, and a check follows only when control is enabled. */
  function SetHumidity(h: Humidifier, o: HumidityOptions, humidity: int, env: Env): (r: Outcome)
    ensures !(0 <= humidity <= 100) ==> r == Outcome(h, o, [])
    ensures 0 <= humidity <= 100 ==>
              && r.entity.cachedTarget == Some(humidity)
              && r.options == o.(target := Some(humidity))
              && r.entity.enabled == h.enabled
    ensures 0 <= humidity <= 100 && !h.enabled ==>
              r.commands == [] && r.entity.lastChange == h.lastChange
  {
    if !(0 <= humidity <= 100) then Outcome(h, o, [])
    else
      var h' := h.(cachedTarget := Some(humidity));
      var o' := o.(target := Some(humidity));
      if h.enabled then CheckHumidity(h', o', env) else Outcome(h', o', [])
  }

  /** The check that follows a new target judges the humidity against the
      new target: with control enabled and the humidity above the new band,
      the high preset is selected right away. */
  lemma NewTargetTakesEffectImmediately(h: Humidifier, o: HumidityOptions, humidity: int, env: Env)
    requires 0 <= humidity <= 100 && h.enabled
    requires !CooldownActive(ConfigOf(HumidifierVariant, o).cooldown, env.now, h.lastChange)
    requires env.hasController && env.state.Some?
    requires ParseMode(ConfigOf(HumidifierVariant, o).highMode).Some?
    requires CurrentPreset(env.state) != Some(ConfigOf(HumidifierVariant, o).highMode)
    requires CurrentHumidity(env.readings).Some?
    requires CurrentHumidity(env.readings).value > humidity + ConfigOf(HumidifierVariant, o).hysteresis
    ensures var r := SetHumidity(h, o, humidity, env);
            && r.commands != []
            && r.commands[0] == ModeSet(ParseMode(ConfigOf(HumidifierVariant, o).highMode).value)
            && r.entity.lastChange == Some(env.now)
  {
    var o' := o.(target := Some(humidity));
    assert ConfigOf(HumidifierVariant, o').highMode == ConfigOf(HumidifierVariant, o).highMode;
    assert ConfigOf(HumidifierVariant, o').cooldown == ConfigOf(HumidifierVariant, o).cooldown;
    assert UpperThreshold(HumidifierVariant, ConfigOf(HumidifierVariant, o'))
           == humidity + ConfigOf(HumidifierVariant, o).hysteresis;
  }

  /** Where the band sits inside [1, 99] and is not inverted, the
      humidifier decides exactly as the shared mixin does. */
  lemma AgreesWithMixinInsideRange(enabled: bool, current: Option<int>, o: HumidityOptions,
                                   mode: Option<string>, now: int, lastChange: Option<int>)
    requires o.target.Some?
    requires ConfigOf(MixinVariant, o).hysteresis >= 0
    requires MinThreshold <= o.target.value - ConfigOf(MixinVariant, o).hysteresis
    requires o.target.value + ConfigOf(MixinVariant, o).hysteresis <= MaxThreshold
    ensures Decide(HumidifierVariant, enabled, current, o, mode, now, lastChange)
            == Decide(MixinVariant, enabled, current, o, mode, now, lastChange)
  {
    var unclampedFlat := MixinVariant.(clampThresholds := false);
    ClampingIrrelevantInsideRange(MixinVariant, enabled, current, o, mode, now, lastChange);
    assert MixinVariant.(clampThresholds := true) == MixinVariant;
    NestingIrrelevantForProperBand(unclampedFlat, enabled, current, o, mode, now, lastChange);
    assert unclampedFlat.(highBranchIsFinal := true) == HumidifierVariant;
    assert unclampedFlat.(highBranchIsFinal := false) == unclampedFlat;
  }
}

=== FILE: humidity_control.dfy ===
/** The hysteresis controller: aggregation of the linked humidity sensors,
    the per-device configuration with its defaults, and one decision
    function covering the three copies of the check (the shared mixin, the
    humidifier entity and the climate entity), which differ in threshold
    clamping, cooldown source, default high preset and the shape of the
    high branch. */
module HumidityControl {
  import opened Common

  // ---------------------------------------------------------------------
  // Sensor aggregation
  // ---------------------------------------------------------------------

  /** What one configured sensor reports: no state object at all, the
      `unavailable` or `unknown` marker, or some other state string, already
      passed through `int(float(...))` (`None` when that raises `ValueError`
      or `TypeError`; an infinite value, which raises `OverflowError`
      instead, has no counterpart here). */
  datatype SensorReading = NoState | Unavailable | Unknown | Reported(parsed: Option<int>)

  predicate Usable(r: SensorReading)
  {
    r.Reported? && r.parsed.Some?
  }

  /** The device's humidity: the largest usable reading of its configured
      sensors, or `None` when no sensor is configured or none is usable. */
  function CurrentHumidity(readings: seq<SensorReading>): (h: Option<int>)
    ensures h.None? <==> forall i :: 0 <= i < |readings| ==> !Usable(readings[i])
    ensures h.Some? ==> exists i :: 0 <= i < |readings| && readings[i] == Reported(h)
    ensures h.Some? ==>
              forall i :: 0 <= i < |readings| && Usable(readings[i]) ==> readings[i].parsed.value <= h.value
    decreases |readings|
  {
    if readings == [] then None
    else
      var rest := CurrentHumidity(readings[1..]);
      assert forall i :: 1 <= i < |readings| ==> readings[i] == readings[1..][i - 1];
      match readings[0]
      case Reported(Some(v)) =>
        if rest.Some? && rest.value > v then rest else Some(v)
      case _ => rest
  }

  // ---------------------------------------------------------------------
  // Configuration
  // ---------------------------------------------------------------------

  const DefaultHysteresis: int := 5
  const DefaultCooldownSeconds: int := 60
  const DefaultHighMode: string := "home_plus"
  const DefaultLowMode: string := "home"

  /** Thresholds are kept inside this range by the clamping variant. */
  const MinThreshold: int := 1
  const MaxThreshold: int := 99

  /** The per-device options as stored (absent keys are `None`). */
  datatype HumidityOptions = HumidityOptions(
    hysteresis: Option<int>,
    target: Option<int>,
    highMode: Option<string>,
    lowMode: Option<string>,
    cooldown: Option<int>)

  /** The configuration a check works with, defaults filled in. */
  datatype HumidityConfig = HumidityConfig(
    hysteresis: int,
    target: Option<int>,
    highMode: string,
    lowMode: string,
    cooldown: int)

  /** Where a copy of the check takes its cooldown from. */
  datatype CooldownSource = ConfiguredCooldown | FixedCooldown(seconds: int)

  /** What distinguishes the three copies of the check. */
  datatype Variant = Variant(
    clampThresholds: bool,
    cooldownSource: CooldownSource,
    defaultHighMode: string,
    // `if above: (if not high: switch) elif below: ...` rather than
    // `if above and not high: switch elif below: ...`
    highBranchIsFinal: bool)

  /** The copy shared through the mixin. */
  const MixinVariant: Variant := Variant(true, ConfiguredCooldown, DefaultHighMode, false)

  /** Reading the options: missing keys take their defaults, except the
      target, which has none. */
  function ConfigOf(v: Variant, o: HumidityOptions): (c: HumidityConfig)
    ensures c.target == o.target
    ensures c.hysteresis == (if o.hysteresis.Some? then o.hysteresis.value else DefaultHysteresis)
    ensures c.highMode == (if o.highMode.Some? then o.highMode.value else v.defaultHighMode)
    ensures c.lowMode == (if o.lowMode.Some? then o.lowMode.value else DefaultLowMode)
    ensures v.cooldownSource.FixedCooldown? ==> c.cooldown == v.cooldownSource.seconds
    ensures v.cooldownSource.ConfiguredCooldown? ==>
              c.cooldown == (if o.cooldown.Some? then o.cooldown.value else DefaultCooldownSeconds)
  {
    HumidityConfig(
      if o.hysteresis.Some? then o.hysteresis.value else DefaultHysteresis,
      o.target,
      if o.highMode.Some? then o.highMode.value else v.defaultHighMode,
      if o.lowMode.Some? then o.lowMode.value else DefaultLowMode,
      match v.cooldownSource
      case FixedCooldown(s) => s
      case ConfiguredCooldown => if o.cooldown.Some? then o.cooldown.value else DefaultCooldownSeconds)
  }

  function Min(a: int, b: int): int { if a <= b then a else b }
  function Max(a: int, b: int): int { if a >= b then a else b }

  /** Humidity strictly above this switches to the high preset. */
  function UpperThreshold(v: Variant, c: HumidityConfig): (u: int)
    requires c.target.Some?
    ensures u <= c.target.value + c.hysteresis
    ensures v.clampThresholds ==> u <= MaxThreshold
    ensures !v.clampThresholds || c.target.value + c.hysteresis <= MaxThreshold ==>
              u == c.target.value + c.hysteresis
    ensures v.clampThresholds && c.target.value + c.hysteresis > MaxThreshold ==> u == MaxThreshold
  {
    if v.clampThresholds then Min(c.target.value + c.hysteresis, MaxThreshold)
    else c.target.value + c.hysteresis
  }

  /** Humidity strictly below this switches to the low preset. */
  function LowerThreshold(v: Variant, c: HumidityConfig): (l: int)
    requires c.target.Some?
    ensures l >= c.target.value - c.hysteresis
    ensures v.clampThresholds ==> l >= MinThreshold
    ensures !v.clampThresholds || c.target.value - c.hysteresis >= MinThreshold ==>
              l == c.target.value - c.hysteresis
    ensures v.clampThresholds && c.target.value - c.hysteresis < MinThreshold ==> l == MinThreshold
  {
    if v.clampThresholds then Max(c.target.value - c.hysteresis, MinThreshold)
    else c.target.value - c.hysteresis
  }

  // ---------------------------------------------------------------------
  // The decision
  // ---------------------------------------------------------------------

  /** The preset change a check asks for, if any. */
  datatype Action = NoAction | SwitchHigh(mode: string) | SwitchLow(mode: string)

  /** A check's outcome: the action and the new time of the last automatic
      change (seconds). */
  datatype Decision = Decision(action: Action, lastChange: Option<int>)

  /** The previous automatic change is too recent for another one. */
  predicate CooldownActive(cooldown: int, now: int, lastChange: Option<int>)
  {
    lastChange.Some? && now - lastChange.value < cooldown
  }

  /** Control is on, both the humidity and the target are known, and no
      cooldown is running: the thresholds get compared. */
  predicate Armed(v: Variant, enabled: bool, current: Option<int>, o: HumidityOptions,
                  now: int, lastChange: Option<int>)
  {
    enabled && current.Some? && o.target.Some?
    && !CooldownActive(ConfigOf(v, o).cooldown, now, lastChange)
  }

  /** The high branch fires: above the upper threshold and not yet in the
      high preset. */
  predicate GoesHigh(v: Variant, current: int, o: HumidityOptions, mode: Option<string>)
    requires o.target.Some?
  {
    current > UpperThreshold(v, ConfigOf(v, o)) && mode != Some(ConfigOf(v, o).highMode)
  }

  /** The low branch is reached and fires. In the nested form of the high
      branch, humidity above the upper threshold never reaches it. */
  predicate GoesLow(v: Variant, current: int, o: HumidityOptions, mode: Option<string>)
    requires o.target.Some?
  {
    var c := ConfigOf(v, o);
    && !GoesHigh(v, current, o, mode)
    && !(v.highBranchIsFinal && current > UpperThreshold(v, c))
    && current < LowerThreshold(v, c) && mode != Some(c.lowMode)
  }

  /** One humidity check: `current` is the aggregated humidity, `mode` the
      device's current preset name, `now` the clock. */
  function Decide(v: Variant, enabled: bool, current: Option<int>, o: HumidityOptions,
                  mode: Option<string>, now: int, lastChange: Option<int>): (d: Decision)
    // disabled, missing data or cooldown: nothing happens
    ensures !Armed(v, enabled, current, o, now, lastChange) ==> d == Decision(NoAction, lastChange)
    // above the band and not yet high: exactly one switch to the high preset
    ensures Armed(v, enabled, current, o, now, lastChange) && GoesHigh(v, current.value, o, mode) ==>
              d == Decision(SwitchHigh(ConfigOf(v, o).highMode), Some(now))
    // below the band and not yet low: exactly one switch to the low preset
    ensures Armed(v, enabled, current, o, now, lastChange) && GoesLow(v, current.value, o, mode) ==>
              d == Decision(SwitchLow(ConfigOf(v, o).lowMode), Some(now))
    // every other case keeps the last change time
    ensures Armed(v, enabled, current, o, now, lastChange)
            && !GoesHigh(v, current.value, o, mode) && !GoesLow(v, current.value, o, mode) ==>
              d == Decision(NoAction, lastChange)
  {
    if !Armed(v, enabled, current, o, now, lastChange) then Decision(NoAction, lastChange)
    else if GoesHigh(v, current.value, o, mode) then Decision(SwitchHigh(ConfigOf(v, o).highMode), Some(now))
    else if GoesLow(v, current.value, o, mode) then Decision(SwitchLow(ConfigOf(v, o).lowMode), Some(now))
    else Decision(NoAction, lastChange)
  }

  /** A switch is only ever recorded with the current time, and the time
      only moves when a switch is asked for; the direction agrees with the
      side of the band the humidity is on. */
  lemma SwitchesRespectTheBand(v: Variant, enabled: bool, current: Option<int>, o: HumidityOptions,
                               mode: Option<string>, now: int, lastChange: Option<int>)
    ensures var d := Decide(v, enabled, current, o, mode, now, lastChange);
            && (d.action.NoAction? ==> d.lastChange == lastChange)
            && (!d.action.NoAction? ==> d.lastChange == Some(now) && enabled && current.Some? && o.target.Some?)
            && (d.action.SwitchHigh? ==>
                  current.value > UpperThreshold(v, ConfigOf(v, o))
                  && d.action.mode == ConfigOf(v, o).highMode && mode != Some(d.action.mode))
            && (d.action.SwitchLow? ==>
                  current.value < LowerThreshold(v, ConfigOf(v, o))
                  && d.action.mode == ConfigOf(v, o).lowMode && mode != Some(d.action.mode))
  {
  }

  /** Inside the band, bounds included, no preset is touched, whatever the
      current preset. */
  lemma BandHoldsMode(v: Variant, enabled: bool, current: Option<int>, o: HumidityOptions,
                      mode: Option<string>, now: int, lastChange: Option<int>)
    requires current.Some? && o.target.Some?
    requires LowerThreshold(v, ConfigOf(v, o)) <= current.value <= UpperThreshold(v, ConfigOf(v, o))
    ensures Decide(v, enabled, current, o, mode, now, lastChange) == Decision(NoAction, lastChange)
  {
  }

  /** Two checks in quick succession switch at most once: a switch starts a
      cooldown that silences every check made before it elapses. */
  lemma AtMostOneSwitchPerCooldown(v: Variant, enabled: bool, o: HumidityOptions,
                                   current1: Option<int>, mode1: Option<string>, now1: int,
                                   current2: Option<int>, mode2: Option<string>, now2: int,
                                   lastChange: Option<int>)
    requires now1 <= now2 < now1 + ConfigOf(v, o).cooldown
    ensures var d1 := Decide(v, enabled, current1, o, mode1, now1, lastChange);
            !d1.action.NoAction? ==>
              Decide(v, enabled, current2, o, mode2, now2, d1.lastChange) == Decision(NoAction, d1.lastChange)
  {
    var d1 := Decide(v, enabled, current1, o, mode1, now1, lastChange);
    if !d1.action.NoAction? {
      SwitchesRespectTheBand(v, enabled, current1, o, mode1, now1, lastChange);
      assert CooldownActive(ConfigOf(v, o).cooldown, now2, d1.lastChange);
    }
  }

  /** Once the device is in the high preset, humidity above the band asks
      for nothing more (as long as the band is not inverted). */
  lemma SettledHighPresetHolds(v: Variant, enabled: bool, current: Option<int>, o: HumidityOptions,
                               now: int, lastChange: Option<int>)
    requires current.Some? && o.target.Some?
    requires LowerThreshold(v, ConfigOf(v, o)) <= UpperThreshold(v, ConfigOf(v, o))
    requires current.value > UpperThreshold(v, ConfigOf(v, o))
    ensures Decide(v, enabled, current, o, Some(ConfigOf(v, o).highMode), now, lastChange)
            == Decision(NoAction, lastChange)
  {
  }

  /** Clamping the thresholds to [1, 99] changes nothing while the band
      `target ± hysteresis` already lies inside that range. */
  lemma ClampingIrrelevantInsideRange(v: Variant, enabled: bool, current: Option<int>, o: HumidityOptions,
                                      mode: Option<string>, now: int, lastChange: Option<int>)
    requires o.target.Some?
    requires MinThreshold <= o.target.value - ConfigOf(v, o).hysteresis
    requires o.target.value + ConfigOf(v, o).hysteresis <= MaxThreshold
    ensures Decide(v.(clampThresholds := true), enabled, current, o, mode, now, lastChange)
            == Decide(v.(clampThresholds := false), enabled, current, o, mode, now, lastChange)
  {
    var vc := v.(clampThresholds := true);
    var vu := v.(clampThresholds := false);
    assert ConfigOf(vc, o) == ConfigOf(vu, o) == ConfigOf(v, o);
    assert UpperThreshold(vc, ConfigOf(v, o)) == UpperThreshold(vu, ConfigOf(v, o));
    assert LowerThreshold(vc, ConfigOf(v, o)) == LowerThreshold(vu, ConfigOf(v, o));
  }

  /** The nested and the flat form of the high branch differ only when the
      band is inverted (lower threshold above the upper one). */
  lemma NestingIrrelevantForProperBand(v: Variant, enabled: bool, current: Option<int>, o: HumidityOptions,
                                       mode: Option<string>, now: int, lastChange: Option<int>)
    requires o.target.Some?
    requires LowerThreshold(v, ConfigOf(v, o)) <= UpperThreshold(v, ConfigOf(v, o))
    ensures Decide(v.(highBranchIsFinal := true), enabled, current, o, mode, now, lastChange)
            == Decide(v.(highBranchIsFinal := false), enabled, current, o, mode, now, lastChange)
  {
    var vn := v.(highBranchIsFinal := true);
    var vf := v.(highBranchIsFinal := false);
    assert ConfigOf(vn, o) == ConfigOf(vf, o) == ConfigOf(v, o);
    assert UpperThreshold(vn, ConfigOf(v, o)) == UpperThreshold(v, ConfigOf(v, o));
    assert LowerThreshold(vn, ConfigOf(v, o)) == LowerThreshold(v, ConfigOf(v, o));
    assert UpperThreshold(vf, ConfigOf(v, o)) == UpperThreshold(v, ConfigOf(v, o));
    assert LowerThreshold(vf, ConfigOf(v, o)) == LowerThreshold(v, ConfigOf(v, o));
  }

  /** With an inverted band the two forms do part ways: already in the high
      preset at a humidity both above the upper and below the lower
      threshold, the flat form falls through to the low branch. */
  lemma NestingMattersForInvertedBand()
    ensures var o := HumidityOptions(Some(-5), Some(50), Some("party"), Some("home"), None);
            && Decide(MixinVariant.(clampThresholds := false), true, Some(50), o, Some("party"), 0, None)
               == Decision(SwitchLow("home"), Some(0))
            && Decide(MixinVariant.(clampThresholds := false, highBranchIsFinal := true), true, Some(50), o,
                      Some("party"), 0, None)
               == Decision(NoAction, None)
  {
  }

  /** Defaults of the mixin copy: hysteresis 5, cooldown 60 s, high
      `home_plus`, low `home`; the band is `target ± 5` inside [1, 99] and
      is cut off at 99 above and at 1 below. */
  lemma MixinDefaults(t: int)
    ensures var c := ConfigOf(MixinVariant, HumidityOptions(None, Some(t), None, None, None));
            && c.hysteresis == 5 && c.cooldown == 60 && c.highMode == "home_plus" && c.lowMode == "home"
            && UpperThreshold(MixinVariant, c) == (if t + 5 <= 99 then t + 5 else 99)
            && LowerThreshold(MixinVariant, c) == (if t - 5 >= 1 then t - 5 else 1)
  {
  }

  /** Target 60 with hysteresis 5 gives the band [55, 65]: 65 does not
      trigger, 66 does; a target of 98 has its upper threshold clamped to
      99. */
  lemma ThresholdBoundaries()
    ensures var o := HumidityOptions(Some(5), Some(60), None, None, None);
            && UpperThreshold(MixinVariant, ConfigOf(MixinVariant, o)) == 65
            && LowerThreshold(MixinVariant, ConfigOf(MixinVariant, o)) == 55
            && Decide(MixinVariant, true, Some(65), o, Some("home"), 0, None) == Decision(NoAction, None)
            && Decide(MixinVariant, true, Some(66), o, Some("home"), 0, None)
               == Decision(SwitchHigh(DefaultHighMode), Some(0))
    ensures UpperThreshold(MixinVariant, ConfigOf(MixinVariant, HumidityOptions(Some(5), Some(98), None, None, None))) == 99
  {
  }

  /** At 70% with target 60 ± 5, high preset
      `party` and a 60 s cooldown, the first check switches to `party`, a
      check 30 s later does nothing, and one 61 s later finds the device
      already in `party` and does nothing either. */
  lemma PartyScenario()
    ensures var o := HumidityOptions(Some(5), Some(60), Some("party"), Some("home"), Some(60));
            var d1 := Decide(MixinVariant, true, Some(70), o, Some("home"), 1000, None);
            var d2 := Decide(MixinVariant, true, Some(70), o, Some("home"), 1030, d1.lastChange);
            var d3 := Decide(MixinVariant, true, Some(70), o, Some("party"), 1061, d2.lastChange);
            && d1 == Decision(SwitchHigh("party"), Some(1000))
            && d2 == Decision(NoAction, Some(1000))
            && d3 == Decision(NoAction, Some(1000))
  {
  }

  // ---------------------------------------------------------------------
  // The mixin's per-entity state
  // ---------------------------------------------------------------------

  /** Control state an entity keeps for its lifetime: the enable flag and
      the time of the last automatic change. */
  datatype ControlState = ControlState(enabled: bool, lastChange: Option<int>)

  /** A fresh entity: control off, no change yet. */
  const InitialControl: ControlState := ControlState(false, None)

  function EnableControl(s: ControlState): (r: ControlState)
    ensures r.enabled && r.lastChange == s.lastChange
  {
    s.(enabled := true)
  }

  function DisableControl(s: ControlState): (r: ControlState)
    ensures !r.enabled && r.lastChange == s.lastChange
  {
    s.(enabled := false)
  }

  /** What one mixin check leaves behind: the state it keeps, the preset
      change it attempted, and whether the entity's setter raised, in which
      case the error leaves the check. */
  datatype MixinOutcome = MixinOutcome(state: ControlState, action: Action, raised: bool)

  /** The mixin's check on the state it keeps; `mode` is what the entity's
      current-preset accessor returns. The preset change goes through the
      entity's `_set_ventilation_mode`, which the mixin does not guard:
      `setterReturns` says whether that call returns. The change time is set
      only after it has returned. */
  function MixinCheck(s: ControlState, readings: seq<SensorReading>, o: HumidityOptions,
                      mode: Option<string>, now: int, setterReturns: bool): (r: MixinOutcome)
    ensures r.state.enabled == s.enabled
    ensures !s.enabled ==> r == MixinOutcome(s, NoAction, false)
    ensures r.action == NoAction ==> r.state == s && !r.raised
    // the error escapes exactly when a change was attempted and the setter raised
    ensures r.raised <==> r.action != NoAction && !setterReturns
    // a raising setter leaves the state as it was
    ensures !setterReturns ==> r.state == s
    ensures r.action != NoAction && setterReturns ==> r.state.lastChange == Some(now)
    // above the band and not yet high: the high preset, and the change time
    // becomes now once the setter has returned
    ensures Armed(MixinVariant, s.enabled, CurrentHumidity(readings), o, now, s.lastChange)
            && GoesHigh(MixinVariant, CurrentHumidity(readings).value, o, mode) ==>
              && r.action == SwitchHigh(ConfigOf(MixinVariant, o).highMode)
              && r.state == (if setterReturns then s.(lastChange := Some(now)) else s)
    // below the band and not yet low: the low preset, likewise
    ensures Armed(MixinVariant, s.enabled, CurrentHumidity(readings), o, now, s.lastChange)
            && GoesLow(MixinVariant, CurrentHumidity(readings).value, o, mode) ==>
              && r.action == SwitchLow(ConfigOf(MixinVariant, o).lowMode)
              && r.state == (if setterReturns then s.(lastChange := Some(now)) else s)
    // otherwise nothing happens and the state is kept
    ensures !(Armed(MixinVariant, s.enabled, CurrentHumidity(readings), o, now, s.lastChange)
              && (GoesHigh(MixinVariant, CurrentHumidity(readings).value, o, mode)
                  || GoesLow(MixinVariant, CurrentHumidity(readings).value, o, mode))) ==>
              r == MixinOutcome(s, NoAction, false)
  {
    var d := Decide(MixinVariant, s.enabled, CurrentHumidity(readings), o, mode, now, s.lastChange);
    if d.action.NoAction? then MixinOutcome(s, NoAction, false)
    else if setterReturns then MixinOutcome(s.(lastChange := d.lastChange), d.action, false)
    else MixinOutcome(s, d.action, true)
  }

  /** Disabling control silences every later check until it is enabled
      again, and leaves the cooldown clock where it was. */
  lemma DisabledControlIsInert(s: ControlState, readings: seq<SensorReading>, o: HumidityOptions,
                               mode: Option<string>, now: int, setterReturns: bool)
    ensures MixinCheck(DisableControl(s), readings, o, mode, now, setterReturns)
            == MixinOutcome(DisableControl(s), NoAction, false)
  {
  }

  /** A raising setter starts no cooldown: unlike the entities' own copies,
      which record the time whatever became of the call, the mixin tries the
      same change again at any later check with the same readings. */
  lemma RaisingSetterStartsNoCooldown(s: ControlState, readings: seq<SensorReading>, o: HumidityOptions,
                                      mode: Option<string>, now: int, later: int, setterReturns: bool)
    requires MixinCheck(s, readings, o, mode, now, false).action != NoAction
    requires now <= later
    ensures var first := MixinCheck(s, readings, o, mode, now, false);
            MixinCheck(first.state, readings, o, mode, later, setterReturns).action == first.action
  {
  }
}

=== FILE: mode_change.dfy ===
/** The speed policy every manual or automatic preset change goes through:
    the humidifier's `async_set_mode` and the climate entity's
    `async_set_fan_mode` issue the same controller calls. */
module ModeChange {
  import opened Common

  /** The speed a stopped device is started at when it leaves standby. */
  const ResumeSpeed: nat := 50

  /** The controller calls issued when `requested` is asked for.

      `hasController`: the coordinator holds a controller for the device.
      `state`: the last polled snapshot, if any (it is read after the preset
      call, but it is the cached poll result, not a fresh read).
      `modeSetSucceeds`: whether the preset call returns; when it raises, the
      error is logged and the speed adjustment is skipped. */
  function Commands(hasController: bool, requested: string, state: Option<DeviceState>,
                    modeSetSucceeds: bool): (cmds: seq<Command>)
    // no controller or an unknown preset name: nothing is called at all
    ensures cmds == [] <==> !hasController || ParseMode(requested).None?
    // otherwise the preset call comes first, and at most one speed call follows
    ensures cmds != [] ==> cmds[0] == ModeSet(ParseMode(requested).value)
    ensures |cmds| <= 2
    ensures forall i :: 1 <= i < |cmds| ==> cmds[i] == SpeedSet(0) || cmds[i] == SpeedSet(ResumeSpeed)
    // a speed call follows only a preset call that returned, and only when
    // the snapshot's speed disagrees with the requested preset
    ensures |cmds| == 2 <==>
              hasController && ParseMode(requested).Some? && modeSetSucceeds && state.Some?
              && (if requested == ModeName(Standby) then state.value.speed > 0 else state.value.speed == 0)
    // standby stops a running device
    ensures SpeedSet(0) in cmds <==>
              hasController && requested == ModeName(Standby) && modeSetSucceeds
              && state.Some? && state.value.speed > 0
    // any other preset starts a stopped device at medium speed
    ensures SpeedSet(ResumeSpeed) in cmds <==>
              hasController && ParseMode(requested).Some? && requested != ModeName(Standby)
              && modeSetSucceeds && state.Some? && state.value.speed == 0
  {
    if !hasController then []
    else
      match ParseMode(requested)
      case None => []
      case Some(m) =>
        if !modeSetSucceeds then [ModeSet(m)]
        else if requested == ModeName(Standby) then
          if state.Some? && state.value.speed > 0 then [ModeSet(m), SpeedSet(0)] else [ModeSet(m)]
        else
          if state.Some? && state.value.speed == 0 then [ModeSet(m), SpeedSet(ResumeSpeed)] else [ModeSet(m)]
  }

  /** What the policy is for: once the device accepts the calls, it runs
      exactly when its preset is not standby, and it is in the requested
      preset. */
  lemma CommandsAlignSpeedWithMode(requested: string, s: DeviceState)
    requires ParseMode(requested).Some?
    ensures var after := Apply(s, Commands(true, requested, Some(s), true));
            && after.mode == ParseMode(requested).value
            && (after.speed > 0 <==> after.mode != Standby)
  {
    var m := ParseMode(requested).value;
    var cmds := Commands(true, requested, Some(s), true);
    assert ModeName(Standby) == "standby";
    if |cmds| == 2 {
      assert Apply(s, cmds) == Apply(s.(mode := m), cmds[1..]);
      assert cmds[1..] == [cmds[1]];
    } else {
      assert cmds == [ModeSet(m)];
      assert Apply(s, cmds) == Apply(s.(mode := m), []);
    }
  }

  /** Asking again for the preset just applied calls the controller for the
      preset only: the speed is already where the policy wants it. */
  lemma RepeatedRequestAddsNoSpeedCall(requested: string, s: DeviceState)
    requires ParseMode(requested).Some?
    ensures var after := Apply(s, Commands(true, requested, Some(s), true));
            Commands(true, requested, Some(after), true) == [ModeSet(ParseMode(requested).value)]
  {
    CommandsAlignSpeedWithMode(requested, s);
  }
}
